=== FILE: README.md ===
# Inventory and point-of-sale core, modelled in Dafny

The system is a small shop backend (Express + MongoDB) with a React point-of-sale page.
This project models its stock-and-ledger core and the page's cart:

- **Store** (`Database.Store`). A class holding:
  - the products collection, as a map from id to `Product` plus the collection's insertion order;
  - the append-only Bill, Sale and Transaction collections;
  - the id counter that hands out product and bill ids.

  The controller calls that write (create, update, delete, restock, checkout, legacy sale) are methods that change the store step by step, as the `await`s of the source do. The reads are methods that change nothing (`GetProductById`, `GetStats`) or functions of the store's contents (`GetBills`).
- **Checkout** (`BillController.CreateBill`). The source's two loops become two methods:
  - a validation loop (`CheckItems`) that checks every line before anything is written;
  - a commit loop (`CommitLines`) that, per line, lowers the stock, logs a legacy Sale and logs an OUT Transaction remarked `Bill #<id>`.

  Both methods are proved against pure functions: `Validate`, `Process`, `Total`, `Commit`, `SalesOf` and `OutEntries`.
- **Catalog operations** (`ProductController`): look up, create, update with the JavaScript `||` fallbacks, delete, and restock with an IN Transaction.
- **Legacy sale and dashboard** (`SaleController`, `SaleAggregates`):
  - `createSale`;
  - the figures of `getStats`: stock value, low-stock count, category counts, today's revenue, the 7-day series and the top sellers;
  - the daily report.

  All of them are computed from the product list and the Sale log.
- **Cart** (`SalesPage`). Pure functions from cart to cart (add, remove, change quantity), the grand total, and the checkout guard with the request it posts.
- **Cross-cutting properties** (`EndToEnd`):
  - A cart the page keeps passes every check of the checkout (`KeptCartCheckoutSucceeds`), and `CreateBill` succeeds on such a bill as long as every product in it has a non-empty name. The Bill schema (backend/models/Bill.js:15) requires each line's `productName`. It cannot drive stock negative.
  - The confirmed total is the stored bill total.
  - A checkout moves exactly its total from stock value into today's revenue.

Representation choices:
- Days are integers, and "now" and "today" are parameters.
- Prices are integer cents. Quantities are unbounded integers, because the source never checks their sign.
- ObjectIds are naturals from one counter.
- Errors carry the source's HTTP status and message.

The code is modelled as written:
- duplicate product ids in a bill are not merged;
- line quantities may be negative;
- statistics read the Sale log, never the ledger;
- a legacy `createSale` lowers stock without writing a Transaction.

`BillController.DuplicateLinesOversell` and `BillController.NegativeLineAccepted` exhibit the first two with concrete inputs.
The top sellers are limited to five before deleted products are dropped, so a deleted best seller still takes a place. `SaleAggregates.DeletedLeaderShortens` proves this for all inputs, and `SaleAggregates.DeletedLeaderExample` gives an instance.

## Model

| member | source | states |
|---|---|---|
| Models.OrElse | backend/controllers/billController.js:46 | JavaScript's or-fallback on an optional string: a present non-empty value wins, an absent or empty one gives the fallback |
| Models.ParsePaymentMode | backend/models/Bill.js:24-28 | an absent payment mode defaults to Cash; a present one is accepted exactly when it is one of Cash, Card, UPI |
| Models.PaymentModeRoundTrip | backend/models/Bill.js:24-28 | every enum value is accepted back from its stored name |
| Models.PaymentModeExact | backend/models/Bill.js:24-28 | an accepted name is exactly the name of the mode it yields |
| Models.IdText | backend/controllers/billController.js:74 | an id renders as a non-empty string of decimal digits |
| Models.IdTextRoundTrip | backend/controllers/billController.js:74 | the decimal rendering of an id reads back to the same id |
| Models.IdTextInjective | backend/controllers/billController.js:74 | different ids render differently |
| Database.InOrder | backend/controllers/saleController.js:61 | the product list has one entry per listed id, each the stored product |
| Database.DistinctCard | backend/controllers/saleController.js:59-61 | an id list without repetitions has as many ids as its set of ids |
| Database.Without | backend/controllers/productController.js:86 | removing an id from the listing keeps exactly the other ids, still without repetitions |
| Database.NetAppend | backend/models/Transaction.js:9-17 | the ledger balance of a product over two stretches of the ledger is the sum of the two balances |
| Database.Store.FindAll | backend/controllers/saleController.js:59-61 | `Product.find({})` lists every stored product exactly once, as many as `countDocuments` reports |
| SaleAggregates.StockValue | backend/controllers/saleController.js:62 | the stock value is never negative while no product has a negative price or quantity |
| SaleAggregates.RevenueSince | backend/controllers/saleController.js:66-69 | today's revenue is zero while every sale is dated before today |
| BillController.ExactStockPasses | backend/controllers/billController.js:28 | a line asking for exactly the units on hand passes the strict `<` check |
| BillController.LineError | backend/controllers/billController.js:24-30 | an unknown product gives 404 "Product not found: <name>" (or "undefined" when no name was sent); a known product fails only by asking for more than its stock, and gives 400 "Insufficient stock for <product name>" |
| BillController.FirstFailing | backend/controllers/billController.js:21-30 | the validation loop stops at the first failing line; every earlier line passes |
| BillController.Validate | backend/controllers/billController.js:21-30 | validation succeeds exactly when every line names a stored product with enough units on hand |
| BillController.Process | backend/controllers/billController.js:32-41 | one processed line per request line, in order, carrying the catalog name and price and `amount = price * quantity` |
| BillController.Total | backend/controllers/billController.js:32-33 | `totalAmount` is never negative while no line amount is |
| BillController.Commit | backend/controllers/billController.js:54-58 | committing lines changes no product's presence in the catalog |
| BillController.SalesOf | backend/controllers/billController.js:61-66 | one Sale per line with the line's product, quantity and amount, the acting user and the checkout day |
| BillController.OutEntries | backend/controllers/billController.js:69-75 | one OUT Transaction per line with the line's product and quantity, the user and the `Bill #<id>` remark |
| BillController.BillRemarkInjective | backend/controllers/billController.js:74 | different bills get different remarks, so each OUT entry names its bill |
| BillController.CheckItems | backend/controllers/billController.js:17-42 | the validation loop writes nothing and returns the first failure, or the processed lines and their total |
| BillController.CommitLines | backend/controllers/billController.js:54-76 | the commit loop leaves the catalog at `Commit` of the lines and appends exactly their Sales and OUT entries, in line order |
| BillController.LogsGrowByOneLine | backend/controllers/billController.js:54-76 | one commit-loop iteration extends the catalog update, the Sales and the OUT entries by exactly that line |
| BillController.NamedLinesCatalog | backend/models/Bill.js:15 | the schema's required `productName` (`NamedLines`) holds for a bill exactly when every product it names has a non-empty catalog name |
| BillController.CreateBill | backend/controllers/billController.js:9-84 | no items gives 400 and no write; a failing line gives its 404/400 and no write; a payment mode outside the enum, or a line whose catalog product has an empty name (which the required `productName` of the Bill schema refuses), gives 500 "Billing failed" and no write; a non-empty bill whose lines all pass and carry names, with an enum payment mode, succeeds; on success the stored Bill has a fresh id, the defaulted customer name, the processed lines, their sum, the mode, the actor and the day, stock falls per line, and one Sale and one OUT entry are appended per line |
| BillController.GetBills | backend/controllers/billController.js:91 | the listing holds every bill once, the latest logged first |
| BillController.GetBillsNewestFirst | backend/controllers/billController.js:91 | for a log in creation order the listing is sorted by date descending and is a permutation of the log |
| BillController.CommitQuantity | backend/controllers/billController.js:54-58 | after the commit each product's quantity is the old one minus the units all lines take from it, duplicates included, and no other field changes |
| BillController.OutEntriesNet | backend/controllers/billController.js:69-75 | the OUT entries of a checkout move each product's ledger balance by minus the units its lines take |
| BillController.CheckoutStockMatchesLedger | backend/controllers/billController.js:54-75 | for every product, the stock change of a checkout equals the ledger balance change it writes |
| BillController.SumQtyOfDistinct | backend/controllers/billController.js:54-58 | with distinct products, the units taken from a line's product are that line's quantity |
| BillController.SumQtyAbsent | backend/controllers/billController.js:54-58 | a product named by no line loses no units |
| BillController.CheckoutDistinctNonNegative | backend/controllers/billController.js:28 | with distinct product ids a validated bill leaves each of its products at old stock minus the line quantity, never negative, and other products untouched |
| BillController.DuplicateLinesOversell | backend/controllers/billController.js:28 | two lines for the one unit on hand both pass validation and the commit leaves the stock at -1 |
| BillController.NegativeLineAccepted | backend/controllers/billController.js:28 | a line of -2 units passes validation, raises the stock by 2 and gives a negative bill total |
| ProductController.GetProductById | backend/controllers/productController.js:16-28 | the stored product, or 404 "Product not found" exactly when the id is absent |
| ProductController.CreateProduct | backend/controllers/productController.js:33-50 | a new product under the next id from the counter, which advances by one, with exactly the given fields, appended to the listing; nothing else changes |
| ProductController.Patched | backend/controllers/productController.js:62-66 | name, category, price and supplier are replaced only by truthy values, quantity whenever given |
| ProductController.PriceOrElse | backend/controllers/productController.js:64 | `price || product.price` on a numeric price: a given non-zero price is stored; an absent price or a price of 0 keeps the old one |
| ProductController.PatchedEmpty | backend/controllers/productController.js:62-66 | an update with no fields leaves the product unchanged |
| ProductController.PatchedIdempotent | backend/controllers/productController.js:62-66 | applying the same update twice equals applying it once |
| ProductController.PatchedZeroes | backend/controllers/productController.js:62-65 | with numeric fields, a quantity of 0 is stored while a price of 0 and an empty name are ignored |
| ProductController.UpdateProduct | backend/controllers/productController.js:55-76 | 404 and no change for an unknown id; otherwise only that product changes, to its patched value |
| ProductController.DeleteProduct | backend/controllers/productController.js:81-94 | 404 and no change for an unknown id; otherwise exactly that product leaves the catalog and the listing |
| ProductController.RestockProduct | backend/controllers/productController.js:101-131 | 404 and no write for an unknown id; otherwise the quantity rises by exactly the given amount, no other field changes, and one IN Transaction with that quantity, the actor and the remark (default "Manual Restock") is appended |
| ProductController.InEntry | backend/controllers/productController.js:115-121 | the restock entry raises its product's ledger balance by the quantity and no other product's, remarked "Manual Restock" unless a remark is given |
| ProductController.RestockMatchesLedger | backend/controllers/productController.js:109-121 | for every product, the stock change of a restock equals the ledger balance change it writes |
| SaleAggregates.StockValueUpdate | backend/controllers/saleController.js:62 | changing one listed product changes the stock value by the difference of that product's `price * quantity` |
| SaleAggregates.LowStockCount | backend/controllers/saleController.js:63 | the low-stock count is the number of products with quantity strictly below 5, and at most the product count |
| SaleAggregates.SumValuesRemove | backend/controllers/saleController.js:72-75 | the sum of a map's counts does not depend on the key taken first |
| SaleAggregates.SumValuesUpdate | backend/controllers/saleController.js:74 | setting one key changes the sum of counts by the difference of its value |
| SaleAggregates.CategoryDistribution | backend/controllers/saleController.js:72-75 | one entry per category that occurs, holding its number of products; the counts add up to the number of products |
| SaleAggregates.CountStep | backend/controllers/saleController.js:73-74 | one more product adds its category and counts once towards it |
| SaleAggregates.SumAllOrders | backend/controllers/saleController.js:153 | counting one per sale gives the number of sales |
| SaleAggregates.SumAllAppend | backend/controllers/saleController.js:153-155 | a sum over two stretches of the Sale log is the sum of the two sums |
| SaleAggregates.RevenueSinceAppend | backend/controllers/saleController.js:66-69 | today's revenue over two stretches of the Sale log is the sum of the two |
| SaleAggregates.RevenueSinceIsToday | backend/controllers/saleController.js:66-69 | with no sale dated after today, today's revenue is the revenue of the sales dated today |
| SaleAggregates.Last7Days | backend/controllers/saleController.js:78-95 | exactly seven points, oldest first and ending today, each the number and the revenue of that day's sales |
| SaleAggregates.SoldProducts | backend/controllers/saleController.js:102-105 | the group keys are each sold product once, and only those |
| SaleAggregates.Groups | backend/controllers/saleController.js:102-105 | one group per sold product, carrying its summed units |
| SaleAggregates.InsertBySold | backend/controllers/saleController.js:107 | insertion adds exactly one entry and loses none |
| SaleAggregates.InsertSorted | backend/controllers/saleController.js:107 | inserting into a list sorted by units descending keeps it sorted |
| SaleAggregates.SortBySold | backend/controllers/saleController.js:107 | the sort yields a permutation ordered by units sold, descending |
| SaleAggregates.SortKeepsDistinct | backend/controllers/saleController.js:107 | sorting distinct groups keeps them distinct |
| SaleAggregates.JoinCatalog | backend/controllers/saleController.js:109-125 | the lookup keeps exactly the groups whose product still exists, with its name and units |
| SaleAggregates.JoinCatalogOrder | backend/controllers/saleController.js:109-125 | if the groups are ranked by units sold and name distinct products, so is the joined list |
| SaleAggregates.Take5 | backend/controllers/saleController.js:108 | the limit keeps exactly the first five entries, or all of them when there are five or fewer |
| SaleAggregates.GroupsExact | backend/controllers/saleController.js:102-105 | every group is a sold product with its units summed over the whole log |
| SaleAggregates.GroupsCover | backend/controllers/saleController.js:102-105 | every sold product has its group |
| SaleAggregates.TopProductsSpec | backend/controllers/saleController.js:100-126 | at most five entries, best seller first, distinct products still in the catalog with their names and units sold; a catalog product that sold but is not listed sold no more than any listed one |
| SaleAggregates.TopOrder | backend/controllers/saleController.js:107-108 | the top list has at most five entries, ordered by units sold descending, no product twice |
| SaleAggregates.TopEntryExact | backend/controllers/saleController.js:102-105 | each top entry carries the units its product sold over the whole log |
| SaleAggregates.TopBeatsRest | backend/controllers/saleController.js:107-108 | an unlisted catalog product sold no more than any listed one |
| SaleAggregates.TopProducts | backend/controllers/saleController.js:100-126 | at most five entries, each a product still in the catalog with its catalog name |
| SaleAggregates.TopListsCatalogued | backend/controllers/saleController.js:107-125 | each of the five best-ranked groups whose product is still in the catalog is listed with its name and units |
| SaleAggregates.TopIncludesLeaders | backend/controllers/saleController.js:100-126 | whatever order ties are broken in, a catalog product that sold and that at most four other sold products match or beat is listed |
| SaleAggregates.RankWithinRivals | backend/controllers/saleController.js:107 | a group's rank after the sort is below the number of products that sold at least as much |
| SaleAggregates.DeletedLeaderShortens | backend/controllers/saleController.js:108-118 | as written, a deleted best seller keeps its place through the limit and is then dropped, so at most four products are listed |
| SaleAggregates.SoldOnce | backend/controllers/saleController.js:102-105 | in a log naming each product once, a product's summed units are those of its one sale |
| SaleAggregates.DeletedLeaderExample | backend/controllers/saleController.js:100-126 | six products sold, the best seller deleted, five still in the catalog, and at most four listed |
| SaleAggregates.InsertDay | backend/controllers/saleController.js:158 | inserting a day into a strictly descending list keeps it strictly descending and adds exactly that day |
| SaleAggregates.SaleDays | backend/controllers/saleController.js:150-158 | the report's days are exactly the days with sales, strictly descending |
| SaleAggregates.Rows | backend/controllers/saleController.js:151-156 | one row per day, holding that day's count and sums |
| SaleAggregates.DailyReportSpec | backend/controllers/saleController.js:149-159 | one row per day with sales, newest first, each holding the number, revenue and units of that day's sales |
| SaleAggregates.DailyReport | backend/controllers/saleController.js:149-159 | every row is a day that has sales and counts at least one order |
| SaleAggregates.SaleDayHasOrders | backend/controllers/saleController.js:151-153 | a day with a sale counts at least one order |
| SaleAggregates.RowsSumSnoc | backend/controllers/saleController.js:151-156 | one more sale adds its weight to exactly the row of its day |
| SaleAggregates.RowsSumCovers | backend/controllers/saleController.js:151-156 | summed over rows covering every sale day, a report column totals the whole log |
| SaleAggregates.RowsSumEmpty | backend/controllers/saleController.js:151-156 | rows over no sales sum to zero |
| SaleAggregates.DailyReportConserves | backend/controllers/saleController.js:149-159 | the report's orders add up to the number of sales, its revenue to the summed `totalPrice`, its items to the summed `quantitySold` |
| SaleController.CreateSale | backend/controllers/saleController.js:7-40 | 404 and 400 with no write; otherwise one Sale priced `price * quantitySold` is logged, the stock falls by `quantitySold`, and no Transaction is written |
| SaleController.SaleMovesValue | backend/controllers/saleController.js:17-34 | a sale that passes the stock check leaves the stock non-negative and moves exactly its `totalPrice` from stock value to today's revenue |
| SaleController.GetStats | backend/controllers/saleController.js:57-142 | the product count, stock value, low-stock count (at most the product count), today's revenue, category counts (summing to the product count), the 7-day series (whose last point is today's revenue while no sale is dated later) and the top sellers |
| SalesPage.LineIndex | frontend/src/pages/Sales.jsx:43 | `find` returns the first line with the id, or none when no line has it |
| SalesPage.ListedIndex | frontend/src/pages/Sales.jsx:61 | `find` returns the first fetched product with the id, or none |
| SalesPage.Replace | frontend/src/pages/Sales.jsx:47 | the map replaces every line with the id and keeps the rest |
| SalesPage.ReplaceOne | frontend/src/pages/Sales.jsx:47 | in a cart without repeated ids the map changes exactly the line found |
| SalesPage.RemoveFromCart | frontend/src/pages/Sales.jsx:54-56 | the filter never lengthens the cart |
| SalesPage.RemoveFromCartMembers | frontend/src/pages/Sales.jsx:54-56 | the filter keeps exactly the lines with another id |
| SalesPage.RemoveAbsent | frontend/src/pages/Sales.jsx:54-56 | removing an id no line has leaves the cart unchanged |
| SalesPage.RemoveOne | frontend/src/pages/Sales.jsx:54-56 | in a cart without repeated ids, removal drops exactly the line found and keeps the others in order |
| SalesPage.AddToCartSpec | frontend/src/pages/Sales.jsx:40-51 | out of stock: alert and no change; new product: a line of quantity 1 appended; known product: its line goes up by one, or alert and no change when that passes the stock |
| SalesPage.AddToCart | frontend/src/pages/Sales.jsx:40-51 | an out-of-stock product gives "Out of Stock!"; without an alert the product has a line in the new cart |
| SalesPage.AddIncrements | frontend/src/pages/Sales.jsx:45-47 | incrementing changes only the line found, keeping its stored fields |
| SalesPage.UpdateQtySpec | frontend/src/pages/Sales.jsx:59-69 | above stock: alert and no change; below 1: the line is removed; otherwise only that line's quantity is set |
| SalesPage.UpdateQty | frontend/src/pages/Sales.jsx:59-69 | an alert leaves the cart unchanged, and no change lengthens the cart |
| SalesPage.AddToCartKeepsCartOk | frontend/src/pages/Sales.jsx:40-51 | adding keeps the cart free of repeated ids with every quantity in [1, fetched stock] |
| SalesPage.RemoveKeepsCartOk | frontend/src/pages/Sales.jsx:54-56 | removing keeps that cart invariant |
| SalesPage.DropKeepsCartOk | frontend/src/pages/Sales.jsx:54-56 | dropping any one line of a valid cart leaves a valid cart |
| SalesPage.UpdateQtyKeepsCartOk | frontend/src/pages/Sales.jsx:59-69 | changing a quantity keeps that cart invariant |
| SalesPage.Payload | frontend/src/pages/Sales.jsx:85-90 | one request line per cart line, in order, with the line's id, name, quantity and price |
| SalesPage.HandleCheckout | frontend/src/pages/Sales.jsx:75-91 | an empty cart is refused with "Cart is empty!", a declined confirmation posts nothing, otherwise the posted request carries the cart's `Payload` (one line per cart line), the chosen payment mode's name and the customer name |
| SalesPage.CheckoutPayload | frontend/src/pages/Sales.jsx:82-91 | a kept cart posts each product once, at least one unit each, and a payment mode the Bill schema reads back as the one chosen |
| SalesPage.GrandTotal | frontend/src/pages/Sales.jsx:72 | the grand total is never negative while no line has a negative price or quantity |
| EndToEnd.KeptCartCheckoutSucceeds | frontend/src/pages/Sales.jsx:41-49 | while each cart product still holds the stock the page fetched, a kept cart passes every checkout check and leaves each of its products at a non-negative stock |
| EndToEnd.CartTotalIsBillTotal | frontend/src/pages/Sales.jsx:72 | at unchanged prices, the total the page confirms is the bill's stored `totalAmount` |
| SaleAggregates.TakeLowersStockValue | backend/controllers/billController.js:57 | taking units of one product lowers the stock value by its price times those units |
| EndToEnd.CommitStepValue | backend/controllers/billController.js:54-58 | the last committed line lowers the stock value by its own amount |
| EndToEnd.CommitPrice | backend/controllers/billController.js:54-58 | a commit leaves every price as it was |
| EndToEnd.CommitLowersStockValue | backend/controllers/billController.js:54-58 | committing catalog-priced lines lowers the stock value by their total |
| EndToEnd.CheckoutSalesRevenue | backend/controllers/billController.js:61-66 | the Sales a checkout logs add up to the bill total in today's revenue |
| EndToEnd.CheckoutMovesValue | backend/controllers/billController.js:32-66 | a successful checkout moves exactly the bill total from the stock value into today's revenue |

## Left out

- HTTP, routing, authentication and role checks (server and route files) are left out. The acting user is a parameter.
- The Mongoose persistence layer and `populate` are left out. So are the `catch` branches that answer 500 (or 400/404) on storage failures or malformed ObjectIds. Two exceptions are modelled, both raised by `Bill.create` in `createBill`: a payment mode outside the schema's enum, and a line with an empty `productName`, which the schema requires.
- Concurrent `createBill`/`createSale` calls are not modelled. Every call runs to completion on one store, so the race between a check and its write is not represented.
- Floating-point prices are not modelled. Prices and amounts are integer cents. `toFixed`/`toLocaleDateString` formatting is left out.
- Timestamps, time zones, `setHours`/`setDate` and `$dateToString` are reduced to an integer day. "now" and "today" are parameters.
- BillController.CreateBill treats a missing `items` field as the empty list. Both give the same 400.
- BillController.CreateBill does not model `Number(item.quantity)` on non-numeric input or NaN. Quantities arrive as integers.
- ProductController.RestockProduct does not model `Number(quantity)` on non-numeric input or NaN. Quantities arrive as integers.
- ProductController.PriceOrElse and ProductController.PatchedZeroes take the update body's price as a JSON number. The products page sends its form fields as strings: `handleChange` stores the input's value (frontend/src/pages/Products.jsx:40) and the form is sent as it is (:49). A price of `"0"` from that page is a non-empty string, so `price || product.price` keeps it and Mongoose stores 0. The model has no string price, so it does not capture this; the same holds for the string forms of the other fields.
- ProductController.CreateProduct leaves out the Product schema's validation and its 400 "Invalid product data". models/Product.js is not part of this model; the Product fields follow createProduct.
- BillController.GetBills models the date-descending sort as the reverse of the bill log. Bills are logged with the creation time as their date, so the two agree. The source leaves equal dates in no guaranteed order.
- SaleController.GetStats takes `Product.countDocuments()` and `Product.find({})` from one state of the store.
- SaleController.GetStats: its `categoryDistribution` and `topProducts` figures carry the two limits of SaleAggregates.CategoryDistribution and SaleAggregates.TopProducts stated next.
- SaleAggregates.CategoryDistribution counts into a map, so every category name gets an integer count. The source counts into a plain JavaScript object. There, a category named after an `Object.prototype` member ("constructor", "toString", "valueOf", "hasOwnProperty", ...) starts from the inherited function and gets a string such as `"function Object() { [native code] }1"`. A category named "__proto__" is dropped, and the counts then no longer add up to the product count. The model matches the source only for categories not named after an `Object.prototype` member.
- SaleAggregates.TopProducts fixes one order where the database guarantees none. It lists the `$group` results in order of first sale and sorts them stably. MongoDB gives `$group` output no order and breaks `$sort` ties arbitrarily, so when products tie around fifth place the source may list a different set of five. `SaleAggregates.TopIncludesLeaders` and `SaleAggregates.TopBeatsRest` state what holds whatever the tie order.
- `getProducts` and `getSales` (plain listings, with `populate` for the latter) have no separate member. `Database.Store.FindAll` is the product listing.
- `exportSales` is left out: CSV rendering through an outside library.
- `handlePrint` and all rendering of the React pages are left out. The search filter is left out too: it only narrows what is shown.
- The page's reaction to the server's answer is left out. That covers resetting the cart and the customer name, refetching products, and the failure alert.
- SalesPage.UpdateQty requires that the id has a cart line and a fetched product. The handler dereferences both lookups unchecked, and the page only offers it on cart lines.
- `createdAt`/`updatedAt` timestamps are not modelled.
- ObjectIds are naturals from one counter shared by products and bills.

=== FILE: BillController.dfy ===
/** Checkout (`createBill`) and the bill listing (`getBills`).

    A checkout first checks every requested line against the catalog without
    writing anything; only when all lines pass does it record the Bill and then,
    line by line, lower the product's stock and append a legacy Sale and an OUT
    Transaction. Lines naming the same product are not merged, and a line's
    quantity is not required to be positive. */
module BillController {
  import opened Models
  import opened Database

  /** One element of the request's `items` array. `productName` only appears in the
      not-found message; `price` is sent by the page but ignored here. */
  datatype BillRequestItem = BillRequestItem(product: ProductId, productName: Option<string>, quantity: int, price: Option<int>)

  /** How a possibly absent name is printed inside a template string. */
  function ShownName(name: Option<string>): string
  {
    if name.Some? then name.value else "undefined"
  }

  /** The check of one line: the product exists and `product.quantity < item.quantity` is false. */
  predicate LinePasses(catalog: map<ProductId, Product>, item: BillRequestItem)
  {
    item.product in catalog && item.quantity <= catalog[item.product].quantity
  }

  predicate AllPass(catalog: map<ProductId, Product>, items: seq<BillRequestItem>)
  {
    forall j :: 0 <= j < |items| ==> items[j].product in catalog && items[j].quantity <= catalog[items[j].product].quantity
  }

  /** A line that asks for exactly the stock on hand is accepted. */
  lemma {:induction false} ExactStockPasses(catalog: map<ProductId, Product>, item: BillRequestItem)
    requires item.product in catalog && item.quantity == catalog[item.product].quantity
    ensures LinePasses(catalog, item)
  {
  }

  /** The error response for a line that fails its check. */
  function LineError(catalog: map<ProductId, Product>, item: BillRequestItem): (e: Error)
    requires !LinePasses(catalog, item)
    ensures item.product !in catalog ==> e.status == 404 && e.message == "Product not found: " + ShownName(item.productName)
    ensures item.product in catalog ==>
      && item.quantity > catalog[item.product].quantity
      && e.status == 400 && e.message == "Insufficient stock for " + catalog[item.product].name
  {
    if item.product !in catalog then Error(404, "Product not found: " + ShownName(item.productName))
    else Error(400, "Insufficient stock for " + catalog[item.product].name)
  }

  /** The index of the first line that fails its check, or `|items|` when none does. */
  function FirstFailing(catalog: map<ProductId, Product>, items: seq<BillRequestItem>): (k: nat)
    ensures k <= |items|
    ensures forall j :: 0 <= j < k ==> LinePasses(catalog, items[j])
    ensures k < |items| ==> !LinePasses(catalog, items[k])
  {
    if items == [] then 0
    else if !LinePasses(catalog, items[0]) then 0
    else FirstFailing(catalog, items[1..]) + 1
  }

  /** The outcome of the validation pass: the error of the first failing line, if any. */
  function Validate(catalog: map<ProductId, Product>, items: seq<BillRequestItem>): (r: Option<Error>)
    ensures r.None? <==> AllPass(catalog, items)
  {
    var k := FirstFailing(catalog, items);
    if k < |items| then Some(LineError(catalog, items[k])) else None
  }

  /** The bill line for a request line: name and price are read from the catalog. */
  function Snapshot(catalog: map<ProductId, Product>, item: BillRequestItem): (line: BillItem)
    requires item.product in catalog
  {
    var p := catalog[item.product];
    BillItem(item.product, p.name, item.quantity, p.price, p.price * item.quantity)
  }

  /** `processedItems`: one bill line per request line, in request order, priced from the catalog. */
  function Process(catalog: map<ProductId, Product>, items: seq<BillRequestItem>): (lines: seq<BillItem>)
    requires AllPass(catalog, items)
    ensures |lines| == |items|
    ensures forall i :: 0 <= i < |items| ==>
      && lines[i].product == items[i].product
      && lines[i].quantity == items[i].quantity
      && lines[i].productName == catalog[items[i].product].name
      && lines[i].price == catalog[items[i].product].price
      && lines[i].amount == lines[i].price * lines[i].quantity
  {
    seq(|items|, i requires 0 <= i < |items| => Snapshot(catalog, items[i]))
  }

  /** The sum of the line amounts: never negative when no amount is. */
  function Total(lines: seq<BillItem>): (t: int)
    ensures (forall i :: 0 <= i < |lines| ==> lines[i].amount >= 0) ==> t >= 0
  {
    if lines == [] then 0 else Total(lines[..|lines| - 1]) + lines[|lines| - 1].amount
  }

  /** The Bill schema requires each line's `productName`, and a required string refuses "". */
  predicate NamedLines(lines: seq<BillItem>)
  {
    forall i :: 0 <= i < |lines| ==> lines[i].productName != ""
  }

  /** The names the schema checks are the catalog names the lines were built from: a bill
      is refused for a missing name exactly when one of its products has an empty name. */
  lemma {:induction false} NamedLinesCatalog(catalog: map<ProductId, Product>, items: seq<BillRequestItem>)
    requires AllPass(catalog, items)
    ensures NamedLines(Process(catalog, items)) <==>
      forall i :: 0 <= i < |items| ==> catalog[items[i].product].name != ""
  {
    var lines := Process(catalog, items);
    assert forall i :: 0 <= i < |items| ==> lines[i].productName == catalog[items[i].product].name;
  }

  predicate InCatalog(catalog: map<ProductId, Product>, lines: seq<BillItem>)
  {
    forall i :: 0 <= i < |lines| ==> lines[i].product in catalog
  }

  /** The catalog after the commit loop's `product.quantity -= item.quantity`, one line at a time. */
  function Commit(catalog: map<ProductId, Product>, lines: seq<BillItem>): (c: map<ProductId, Product>)
    requires InCatalog(catalog, lines)
    ensures c.Keys == catalog.Keys
  {
    if lines == [] then catalog
    else
      var c := Commit(catalog, lines[..|lines| - 1]);
      var line := lines[|lines| - 1];
      c[line.product := c[line.product].(quantity := c[line.product].quantity - line.quantity)]
  }

  /** One more line takes its units from the stock the earlier lines left. */
  lemma {:induction false} CommitSnoc(catalog: map<ProductId, Product>, lines: seq<BillItem>)
    requires InCatalog(catalog, lines) && lines != []
    ensures var c := Commit(catalog, lines[..|lines| - 1]);
      var line := lines[|lines| - 1];
      Commit(catalog, lines) == c[line.product := c[line.product].(quantity := c[line.product].quantity - line.quantity)]
  {
  }

  /** The legacy Sale written for a bill line. */
  function SaleFor(line: BillItem, actor: UserId, day: Day): Sale
  {
    Sale(line.product, line.quantity, line.amount, actor, day)
  }

  /** The Sales a checkout appends: one per bill line, in line order. */
  function SalesOf(lines: seq<BillItem>, actor: UserId, day: Day): (s: seq<Sale>)
    ensures |s| == |lines|
    ensures forall i :: 0 <= i < |lines| ==>
      s[i].product == lines[i].product && s[i].quantitySold == lines[i].quantity
      && s[i].totalPrice == lines[i].amount && s[i].soldBy == actor && s[i].date == day
  {
    seq(|lines|, i requires 0 <= i < |lines| => SaleFor(lines[i], actor, day))
  }

  /** The OUT movement written for a bill line. */
  function OutEntry(line: BillItem, remark: string, actor: UserId, day: Day): Transaction
  {
    Transaction(line.product, OUT, line.quantity, Some(actor), day, Some(remark))
  }

  /** The Transactions a checkout appends: one OUT entry per bill line, in line order. */
  function OutEntries(lines: seq<BillItem>, remark: string, actor: UserId, day: Day): (t: seq<Transaction>)
    ensures |t| == |lines|
    ensures forall i :: 0 <= i < |lines| ==>
      t[i].product == lines[i].product && t[i].kind == OUT && t[i].quantity == lines[i].quantity
      && t[i].user == Some(actor) && t[i].remarks == Some(remark) && t[i].date == day
  {
    seq(|lines|, i requires 0 <= i < |lines| => OutEntry(lines[i], remark, actor, day))
  }

  /** The remark tying a movement to its bill: `Bill #<id>`. */
  function BillRemark(id: BillId): string
  {
    "Bill #" + IdText(id)
  }

  /** Distinct bills leave distinct remarks. */
  lemma {:induction false} BillRemarkInjective(a: BillId, b: BillId)
    ensures BillRemark(a) == BillRemark(b) ==> a == b
  {
    if BillRemark(a) == BillRemark(b) {
      assert IdText(a) == BillRemark(a)[6..];
      assert IdText(b) == BillRemark(b)[6..];
      IdTextInjective(a, b);
    }
  }

  /** The first loop of `createBill`: check each line in order, stopping at the first
      that fails, and otherwise collect the bill lines and their total. Reads the
      catalog only. */
  method CheckItems(catalog: map<ProductId, Product>, items: seq<BillRequestItem>)
    returns (failure: Option<Error>, processed: seq<BillItem>, totalAmount: int)
    ensures failure == Validate(catalog, items)
    ensures failure.None? ==> processed == Process(catalog, items) && totalAmount == Total(processed)
  {
    totalAmount := 0;
    processed := [];
    var i := 0;
    while i < |items|
      invariant 0 <= i <= |items|
      invariant forall j :: 0 <= j < i ==> LinePasses(catalog, items[j])
      invariant |processed| == i
      invariant forall j :: 0 <= j < i ==> items[j].product in catalog && processed[j] == Snapshot(catalog, items[j])
      invariant totalAmount == Total(processed)
    {
      var item := items[i];
      if item.product !in catalog {
        assert FirstFailing(catalog, items) == i;
        return Some(Error(404, "Product not found: " + ShownName(item.productName))), processed, totalAmount;
      }
      var product := catalog[item.product];
      if product.quantity < item.quantity {
        assert FirstFailing(catalog, items) == i;
        return Some(Error(400, "Insufficient stock for " + product.name)), processed, totalAmount;
      }
      var amount := product.price * item.quantity;
      totalAmount := totalAmount + amount;
      processed := processed + [BillItem(item.product, product.name, item.quantity, product.price, amount)];
      assert processed[..i] == processed[..|processed| - 1];
      i := i + 1;
    }
    assert AllPass(catalog, items);
    failure := None;
  }

  /** The second loop of `createBill`: per bill line, lower the stock and append a Sale
      and an OUT Transaction. */
  method CommitLines(db: Store, lines: seq<BillItem>, remark: string, actor: UserId, now: Day)
    requires InCatalog(db.products, lines)
    modifies db
    ensures db.products == Commit(old(db.products), lines)
    ensures db.sales == old(db.sales) + SalesOf(lines, actor, now)
    ensures db.transactions == old(db.transactions) + OutEntries(lines, remark, actor, now)
    ensures db.bills == old(db.bills) && db.order == old(db.order) && db.nextId == old(db.nextId)
  {
    ghost var products0, sales0, txs0 := db.products, db.sales, db.transactions;
    var k := 0;
    while k < |lines|
      invariant 0 <= k <= |lines|
      invariant db.products == Commit(products0, lines[..k])
      invariant db.sales == sales0 + SalesOf(lines[..k], actor, now)
      invariant db.transactions == txs0 + OutEntries(lines[..k], remark, actor, now)
      invariant db.bills == old(db.bills) && db.order == old(db.order) && db.nextId == old(db.nextId)
    {
      var line := lines[k];
      LogsGrowByOneLine(products0, lines, k, remark, actor, now);
      var product := db.products[line.product];
      db.products := db.products[line.product := product.(quantity := product.quantity - line.quantity)];
      db.sales := db.sales + [SaleFor(line, actor, now)];
      assert db.sales == sales0 + SalesOf(lines[..k + 1], actor, now);
      db.transactions := db.transactions + [OutEntry(line, remark, actor, now)];
      assert db.transactions == txs0 + OutEntries(lines[..k + 1], remark, actor, now);
      k := k + 1;
    }
    assert lines[..|lines|] == lines;
  }

  /** One more line committed: the stock of its product drops by its quantity and
      the logs grow by its Sale and its OUT entry. */
  lemma {:induction false} LogsGrowByOneLine(catalog: map<ProductId, Product>, lines: seq<BillItem>, k: nat, remark: string, actor: UserId, now: Day)
    requires InCatalog(catalog, lines)
    requires k < |lines|
    ensures InCatalog(catalog, lines[..k])
    ensures var c := Commit(catalog, lines[..k]);
      Commit(catalog, lines[..k + 1]) == c[lines[k].product := c[lines[k].product].(quantity := c[lines[k].product].quantity - lines[k].quantity)]
    ensures SalesOf(lines[..k + 1], actor, now) == SalesOf(lines[..k], actor, now) + [SaleFor(lines[k], actor, now)]
    ensures OutEntries(lines[..k + 1], remark, actor, now) == OutEntries(lines[..k], remark, actor, now) + [OutEntry(lines[k], remark, actor, now)]
  {
    assert lines[..k + 1][..k] == lines[..k];
  }

  /** `createBill`. `now` is the day of the call and `actor` the authenticated user. */
  method CreateBill(db: Store, customerName: Option<string>, items: seq<BillRequestItem>,
                    paymentMode: Option<string>, actor: UserId, now: Day) returns (r: Result<Bill>)
    requires db.Valid()
    modifies db
    ensures db.Valid()
    ensures items == [] ==> r == Failure(Error(400, "No items in bill"))
    ensures items != [] && Validate(old(db.products), items).Some? ==>
      r == Failure(Validate(old(db.products), items).value)
    ensures items != [] && Validate(old(db.products), items).None?
      && (ParsePaymentMode(paymentMode).None? || !NamedLines(Process(old(db.products), items)))
      ==> r == Failure(Error(500, "Billing failed"))
    ensures items != [] && AllPass(old(db.products), items) && ParsePaymentMode(paymentMode).Some?
      && NamedLines(Process(old(db.products), items))
      ==> r.Success?
    ensures r.Failure? ==> unchanged(db)
    ensures r.Success? ==>
      && items != [] && AllPass(old(db.products), items) && ParsePaymentMode(paymentMode).Some?
      && NamedLines(r.value.items)
      && r.value == Bill(old(db.nextId), OrElse(customerName, WalkInCustomer), Process(old(db.products), items),
                         Total(Process(old(db.products), items)), ParsePaymentMode(paymentMode).value, actor, now)
      && db.bills == old(db.bills) + [r.value]
      && db.products == Commit(old(db.products), r.value.items)
      && db.order == old(db.order)
      && db.sales == old(db.sales) + SalesOf(r.value.items, actor, now)
      && db.transactions == old(db.transactions) + OutEntries(r.value.items, BillRemark(r.value.id), actor, now)
      && db.nextId == old(db.nextId) + 1
  {
    if items == [] {
      return Failure(Error(400, "No items in bill"));
    }

    // 1. Verify stock and calculate the total; nothing is written here.
    var failure, processed, totalAmount := CheckItems(db.products, items);
    if failure.Some? {
      return Failure(failure.value);
    }

    // 2. Create the Bill record; the schema rejects a payment mode outside its enum
    //    and a line without a product name.
    var mode := ParsePaymentMode(paymentMode);
    if mode.None? || !NamedLines(processed) {
      return Failure(Error(500, "Billing failed"));
    }
    var bill := Bill(db.nextId, OrElse(customerName, WalkInCustomer), processed, totalAmount, mode.value, actor, now);
    db.nextId := db.nextId + 1;
    db.bills := db.bills + [bill];

    // 3. Update stock and write the logs.
    CommitLines(db, processed, BillRemark(bill.id), actor, now);
    return Success(bill);
  }

  /** `getBills`: the bill log sorted by date, newest first (read back in reverse order of creation). */
  function GetBills(bills: seq<Bill>): (r: seq<Bill>)
    ensures |r| == |bills|
    ensures forall i :: 0 <= i < |bills| ==> r[i] == bills[|bills| - 1 - i]
  {
    seq(|bills|, i requires 0 <= i < |bills| => bills[|bills| - 1 - i])
  }

  /** Bills are stamped with the clock when created, so the log's dates never go back;
      then the listing holds the same bills, with dates non-increasing. */
  lemma {:induction false} GetBillsNewestFirst(bills: seq<Bill>)
    requires forall i, j :: 0 <= i < j < |bills| ==> bills[i].date <= bills[j].date
    ensures forall i, j :: 0 <= i < j < |bills| ==> GetBills(bills)[i].date >= GetBills(bills)[j].date
    ensures multiset(GetBills(bills)) == multiset(bills)
  {
    if bills != [] {
      var front := bills[..|bills| - 1];
      GetBillsNewestFirst(front);
      assert GetBills(bills) == [bills[|bills| - 1]] + GetBills(front);
      assert bills == front + [bills[|bills| - 1]];
    }
  }

  // ---------------------------------------------------------------------------
  // What a successful checkout does to the stock, and what it writes to the ledger.

  /** Units of a product that the given bill lines take. */
  function SumQty(lines: seq<BillItem>, id: ProductId): int
  {
    if lines == [] then 0
    else SumQty(lines[..|lines| - 1], id) + (if lines[|lines| - 1].product == id then lines[|lines| - 1].quantity else 0)
  }

  /** Each product's stock drops by exactly the units the lines take from it, duplicates
      included, and no other field of it changes. */
  lemma {:induction false} CommitQuantity(catalog: map<ProductId, Product>, lines: seq<BillItem>, id: ProductId)
    requires InCatalog(catalog, lines)
    requires id in catalog
    ensures Commit(catalog, lines)[id] == catalog[id].(quantity := catalog[id].quantity - SumQty(lines, id))
  {
    if lines != [] {
      CommitQuantity(catalog, lines[..|lines| - 1], id);
    }
  }

  /** The OUT entries of a checkout record, per product, exactly the units its lines take. */
  lemma {:induction false} OutEntriesNet(lines: seq<BillItem>, remark: string, actor: UserId, day: Day, id: ProductId)
    ensures Net(OutEntries(lines, remark, actor, day), id) == -SumQty(lines, id)
  {
    if lines != [] {
      var front := lines[..|lines| - 1];
      OutEntriesNet(front, remark, actor, day, id);
      assert OutEntries(lines, remark, actor, day)[..|lines| - 1] == OutEntries(front, remark, actor, day);
    }
  }

  /** Every stock change a checkout makes is the net of the ledger entries it appends. */
  lemma {:induction false} CheckoutStockMatchesLedger(catalog: map<ProductId, Product>, txs: seq<Transaction>, lines: seq<BillItem>,
                                   remark: string, actor: UserId, day: Day, id: ProductId)
    requires InCatalog(catalog, lines)
    requires id in catalog
    ensures Commit(catalog, lines)[id].quantity - catalog[id].quantity
         == Net(txs + OutEntries(lines, remark, actor, day), id) - Net(txs, id)
  {
    CommitQuantity(catalog, lines, id);
    OutEntriesNet(lines, remark, actor, day, id);
    NetAppend(txs, OutEntries(lines, remark, actor, day), id);
  }

  predicate DistinctLines(lines: seq<BillItem>)
  {
    forall i, j :: 0 <= i < j < |lines| ==> lines[i].product != lines[j].product
  }

  predicate DistinctItems(items: seq<BillRequestItem>)
  {
    forall i, j :: 0 <= i < j < |items| ==> items[i].product != items[j].product
  }

  lemma {:induction false} SumQtyOfDistinct(lines: seq<BillItem>, k: nat)
    requires DistinctLines(lines)
    requires k < |lines|
    ensures SumQty(lines, lines[k].product) == lines[k].quantity
  {
    var front := lines[..|lines| - 1];
    if k < |lines| - 1 {
      SumQtyOfDistinct(front, k);
    } else {
      SumQtyAbsent(front, lines[k].product);
    }
  }

  lemma {:induction false} SumQtyAbsent(lines: seq<BillItem>, id: ProductId)
    requires forall i :: 0 <= i < |lines| ==> lines[i].product != id
    ensures SumQty(lines, id) == 0
  {
    if lines != [] {
      SumQtyAbsent(lines[..|lines| - 1], id);
    }
  }

  /** With distinct products in the request, a validated checkout lowers each named
      product by its line's quantity without going below zero, and leaves every other
      product as it was. */
  lemma {:induction false} CheckoutDistinctNonNegative(catalog: map<ProductId, Product>, items: seq<BillRequestItem>)
    requires AllPass(catalog, items)
    requires DistinctItems(items)
    ensures forall i :: 0 <= i < |items| ==>
      Commit(catalog, Process(catalog, items))[items[i].product].quantity == catalog[items[i].product].quantity - items[i].quantity >= 0
    ensures forall id :: id in catalog && (forall i :: 0 <= i < |items| ==> items[i].product != id) ==>
      Commit(catalog, Process(catalog, items))[id] == catalog[id]
  {
    var lines := Process(catalog, items);
    forall i | 0 <= i < |items|
      ensures Commit(catalog, lines)[items[i].product].quantity == catalog[items[i].product].quantity - items[i].quantity
    {
      CommitQuantity(catalog, lines, items[i].product);
      SumQtyOfDistinct(lines, i);
    }
    forall id | id in catalog && (forall i :: 0 <= i < |items| ==> items[i].product != id)
      ensures Commit(catalog, lines)[id] == catalog[id]
    {
      CommitQuantity(catalog, lines, id);
      SumQtyAbsent(lines, id);
    }
  }

  /** The per-line check does not bound the sum of repeated lines: two lines of one unit
      each pass against a stock of one, and the commit leaves the stock at -1. */
  lemma {:induction false} DuplicateLinesOversell()
    ensures var catalog := map[1 := Product("Pen", "Stationery", 10, 1, "Acme")];
            var items := [BillRequestItem(1, Some("Pen"), 1, Some(10)), BillRequestItem(1, Some("Pen"), 1, Some(10))];
            && Validate(catalog, items).None?
            && Commit(catalog, Process(catalog, items))[1].quantity == -1
  {
    var catalog := map[1 := Product("Pen", "Stationery", 10, 1, "Acme")];
    var items := [BillRequestItem(1, Some("Pen"), 1, Some(10)), BillRequestItem(1, Some("Pen"), 1, Some(10))];
    var lines := Process(catalog, items);
    CommitQuantity(catalog, lines, 1);
    assert lines[..1][..0] == [];
    assert SumQty(lines[..1], 1) == 1;
    assert SumQty(lines, 1) == 2;
  }

  /** Quantities are not checked to be positive: a line of -2 passes, raises the stock
      by 2 and is billed at a negative amount. */
  lemma {:induction false} NegativeLineAccepted()
    ensures var catalog := map[1 := Product("Pen", "Stationery", 10, 1, "Acme")];
            var items := [BillRequestItem(1, Some("Pen"), -2, Some(10))];
            && Validate(catalog, items).None?
            && Commit(catalog, Process(catalog, items))[1].quantity == 3
            && Total(Process(catalog, items)) == -20
  {
    var catalog := map[1 := Product("Pen", "Stationery", 10, 1, "Acme")];
    var items := [BillRequestItem(1, Some("Pen"), -2, Some(10))];
    var lines := Process(catalog, items);
    assert lines[..0] == [];
    assert Total(lines) == -20;
  }
}

=== FILE: Database.dfy ===
/** The in-memory stand-in for the MongoDB collections the controllers work on:
    the products collection (keyed by id, listed in insertion order) and the
    append-only Bill, Sale and Transaction collections. Every controller call is a
    sequence of steps on one Store. */
module Database {
  import opened Models

  /** The products `Product.find({})` returns, in the given order. */
  function InOrder(catalog: map<ProductId, Product>, order: seq<ProductId>): (ps: seq<Product>)
    requires forall i :: 0 <= i < |order| ==> order[i] in catalog
    ensures |ps| == |order|
    ensures forall i :: 0 <= i < |order| ==> ps[i] == catalog[order[i]]
  {
    seq(|order|, i requires 0 <= i < |order| => catalog[order[i]])
  }

  predicate Distinct(ids: seq<ProductId>)
  {
    forall i, j :: 0 <= i < j < |ids| ==> ids[i] != ids[j]
  }

  /** A list without repetitions has as many elements as the set of its elements. */
  lemma {:induction false} DistinctCard(ids: seq<ProductId>)
    requires Distinct(ids)
    ensures |Elements(ids)| == |ids|
  {
    if ids == [] {
      assert Elements(ids) == {};
    } else {
      var front, last := ids[..|ids| - 1], ids[|ids| - 1];
      DistinctCard(front);
      assert last !in Elements(front);
      assert Elements(ids) == Elements(front) + {last};
    }
  }

  lemma {:induction false} SubsetCard(a: set<ProductId>, b: set<ProductId>)
    requires a <= b
    ensures |a| <= |b|
  {
    assert b == a + (b - a);
  }

  function Elements(ids: seq<ProductId>): set<ProductId>
  {
    set id | id in ids
  }

  /** The ids left after removing one id from the listing, in their old order. */
  function Without(ids: seq<ProductId>, gone: ProductId): (r: seq<ProductId>)
    ensures forall id :: id in r <==> id in ids && id != gone
    ensures Distinct(ids) ==> Distinct(r)
  {
    if ids == [] then []
    else
      var front, last := ids[..|ids| - 1], ids[|ids| - 1];
      assert Distinct(ids) ==> Distinct(front) && last !in front;
      if last == gone then Without(front, gone) else Without(front, gone) + [last]
  }

  /** Net stock movement of a product recorded in a stretch of the ledger: IN adds, OUT subtracts. */
  function Net(txs: seq<Transaction>, id: ProductId): int
  {
    if txs == [] then 0
    else
      var t := txs[|txs| - 1];
      Net(txs[..|txs| - 1], id) + (if t.product != id then 0 else if t.kind == IN then t.quantity else -t.quantity)
  }

  lemma {:induction false} NetAppend(a: seq<Transaction>, b: seq<Transaction>, id: ProductId)
    ensures Net(a + b, id) == Net(a, id) + Net(b, id)
  {
    if b == [] {
      assert a + b == a;
    } else {
      NetAppend(a, b[..|b| - 1], id);
      assert (a + b)[..|a + b| - 1] == a + b[..|b| - 1];
      assert (a + b)[|a + b| - 1] == b[|b| - 1];
    }
  }

  class Store {
    var products: map<ProductId, Product>
    /** Insertion order of the products collection. */
    var order: seq<ProductId>
    var bills: seq<Bill>
    var sales: seq<Sale>
    var transactions: seq<Transaction>
    /** The next id the database hands out, to a product or a bill. */
    var nextId: nat

    ghost predicate Valid()
      reads this
    {
      && Distinct(order)
      && (forall id :: id in products <==> id in order)
      && (forall id :: id in products ==> id < nextId)
      && (forall i :: 0 <= i < |bills| ==> bills[i].id < nextId)
    }

    constructor ()
      ensures Valid()
      ensures products == map[] && order == [] && bills == [] && sales == [] && transactions == []
    {
      products := map[];
      order := [];
      bills := [];
      sales := [];
      transactions := [];
      nextId := 0;
    }

    /** `Product.find({})`: every product once, in insertion order; as many as
        `Product.countDocuments()` reports. */
    function FindAll(): (ps: seq<Product>)
      reads this
      requires Valid()
      ensures |ps| == |products| == |order|
      ensures forall i :: 0 <= i < |ps| ==> order[i] in products && ps[i] == products[order[i]]
      ensures forall id :: id in products ==> exists i :: 0 <= i < |ps| && order[i] == id
    {
      DistinctCard(order);
      assert Elements(order) == products.Keys;
      InOrder(products, order)
    }
  }
}

=== FILE: EndToEnd.dfy ===
/** What the point-of-sale page, the checkout and the dashboard promise about each other. */
module EndToEnd {
  import opened Models
  import opened Database
  import opened BillController
  import opened SaleAggregates
  import opened SalesPage

  /** No product in the cart has lost units since the page fetched it; other products may
      have been sold or deleted meanwhile. */
  predicate StockStillHeld(cart: seq<CartLine>, products: seq<Listed>, catalog: map<ProductId, Product>)
  {
    forall i :: 0 <= i < |cart| ==>
      && cart[i].id in catalog
      && ListedIndex(products, cart[i].id) < |products|
      && products[ListedIndex(products, cart[i].id)].product.quantity <= catalog[cart[i].id].quantity
  }

  /** A cart the page kept passes every check of the checkout while the fetched stock is
      still on hand, and because it names each product once, the commit leaves each of its
      products at the old stock minus the line's quantity, which is not negative. */
  lemma {:induction false} KeptCartCheckoutSucceeds(cart: seq<CartLine>, products: seq<Listed>, catalog: map<ProductId, Product>)
    requires CartOk(cart, products)
    requires StockStillHeld(cart, products, catalog)
    ensures Validate(catalog, Payload(cart)) == None
    ensures AllPass(catalog, Payload(cart))
    ensures forall i :: 0 <= i < |cart| ==>
      Commit(catalog, Process(catalog, Payload(cart)))[cart[i].id].quantity == catalog[cart[i].id].quantity - cart[i].qty >= 0
  {
    var items := Payload(cart);
    forall j | 0 <= j < |items|
      ensures items[j].product in catalog && items[j].quantity <= catalog[items[j].product].quantity
    {
      var k := ListedIndex(products, cart[j].id);
      assert products[k].id == cart[j].id;
    }
    assert DistinctItems(items);
    CheckoutDistinctNonNegative(catalog, items);
  }

  /** While the catalog prices are those the lines were added at, the total the page asks
      to confirm is the `totalAmount` the bill is stored with. */
  lemma {:induction false} CartTotalIsBillTotal(cart: seq<CartLine>, catalog: map<ProductId, Product>)
    requires AllPass(catalog, Payload(cart))
    requires forall i :: 0 <= i < |cart| ==> cart[i].id in catalog && catalog[cart[i].id].price == cart[i].product.price
    ensures Total(Process(catalog, Payload(cart))) == GrandTotal(cart)
  {
    if cart != [] {
      var front := cart[..|cart| - 1];
      assert Payload(cart)[..|front|] == Payload(front);
      CartTotalIsBillTotal(front, catalog);
      assert Process(catalog, Payload(cart))[..|front|] == Process(catalog, Payload(front));
    }
  }

  /** The last line of a commit lowers the stock value by its amount. */
  lemma {:induction false} CommitStepValue(catalog: map<ProductId, Product>, order: seq<ProductId>, lines: seq<BillItem>)
    requires Distinct(order) && (forall id :: id in catalog <==> id in order)
    requires InCatalog(catalog, lines) && lines != []
    requires var line := lines[|lines| - 1];
      line.amount == catalog[line.product].price * line.quantity
    ensures StockValue(InOrder(Commit(catalog, lines), order))
         == StockValue(InOrder(Commit(catalog, lines[..|lines| - 1]), order)) - lines[|lines| - 1].amount
  {
    var front := lines[..|lines| - 1];
    var line := lines[|lines| - 1];
    CommitPrice(catalog, front, line.product);
    CommitSnoc(catalog, lines);
    assert forall i :: 0 <= i < |order| ==> order[i] in Commit(catalog, front);
    TakeLowersStockValue(Commit(catalog, front), Commit(catalog, lines), order, line.product, line.quantity);
  }

  /** A commit changes no price. */
  lemma {:induction false} CommitPrice(catalog: map<ProductId, Product>, lines: seq<BillItem>, id: ProductId)
    requires InCatalog(catalog, lines) && id in catalog
    ensures Commit(catalog, lines)[id].price == catalog[id].price
  {
    CommitQuantity(catalog, lines, id);
  }

  /** Committing bill lines priced from the catalog lowers the stock value by the bill's total. */
  lemma {:induction false} CommitLowersStockValue(catalog: map<ProductId, Product>, order: seq<ProductId>, lines: seq<BillItem>)
    requires Distinct(order) && (forall id :: id in catalog <==> id in order)
    requires InCatalog(catalog, lines)
    requires forall i :: 0 <= i < |lines| ==> lines[i].amount == catalog[lines[i].product].price * lines[i].quantity
    ensures StockValue(InOrder(Commit(catalog, lines), order)) == StockValue(InOrder(catalog, order)) - Total(lines)
  {
    if lines != [] {
      var front := lines[..|lines| - 1];
      assert forall i :: 0 <= i < |front| ==> front[i] == lines[i];
      CommitLowersStockValue(catalog, order, front);
      CommitStepValue(catalog, order, lines);
    }
  }

  /** The Sales a checkout logs add the bill's total to the revenue of every day from the
      checkout's own onwards. */
  lemma {:induction false} CheckoutSalesRevenue(lines: seq<BillItem>, actor: UserId, now: Day, today: Day)
    requires today <= now
    ensures RevenueSince(SalesOf(lines, actor, now), today) == Total(lines)
  {
    if lines != [] {
      var front := lines[..|lines| - 1];
      CheckoutSalesRevenue(front, actor, now, today);
      assert SalesOf(lines, actor, now)[..|front|] == SalesOf(front, actor, now);
    }
  }

  /** A successful checkout moves exactly the bill's total out of the stock value and into
      today's revenue, as the dashboard reports them. */
  lemma {:induction false} CheckoutMovesValue(catalog: map<ProductId, Product>, order: seq<ProductId>, items: seq<BillRequestItem>,
                           sales: seq<Sale>, actor: UserId, now: Day, today: Day)
    requires AllPass(catalog, items)
    requires Distinct(order) && (forall id :: id in catalog <==> id in order)
    requires today <= now
    ensures var lines := Process(catalog, items);
      && StockValue(InOrder(Commit(catalog, lines), order)) == StockValue(InOrder(catalog, order)) - Total(lines)
      && RevenueSince(sales + SalesOf(lines, actor, now), today) == RevenueSince(sales, today) + Total(lines)
  {
    var lines := Process(catalog, items);
    CommitLowersStockValue(catalog, order, lines);
    CheckoutSalesRevenue(lines, actor, now, today);
    RevenueSinceAppend(sales, SalesOf(lines, actor, now), today);
  }
}

=== FILE: Models.dfy ===
/** Record shapes of the backend: the Product document, the Bill and its line items,
    the stock-movement Transaction and the legacy Sale, plus the small value helpers
    (optional request fields, HTTP-style errors) that the controllers share. */
module Models {

  /** Document ids. MongoDB's ObjectIds are modelled as naturals handed out by the store. */
  type ProductId = nat
  type UserId = nat
  type BillId = nat

  /** A calendar day, as an index; timestamps are reduced to the day they fall on. */
  type Day = int

  datatype Option<T> = None | Some(value: T)

  /** An error response: the HTTP status and the `message` of its JSON body. */
  datatype Error = Error(status: nat, message: string)

  datatype Result<T> = Success(value: T) | Failure(error: Error)

  /** JavaScript's `s || fallback` for an optional string field: an absent field and
      the empty string are both falsy and give the fallback. */
  function OrElse(s: Option<string>, fallback: string): (r: string)
    ensures s.Some? && s.value != "" ==> r == s.value
    ensures s.None? || s.value == "" ==> r == fallback
  {
    if s.Some? && s.value != "" then s.value else fallback
  }

  /** A catalog entry. Prices are in integer cents; the quantity on hand is an
      unbounded integer because nothing in the backend keeps it non-negative. */
  datatype Product = Product(name: string, category: string, price: int, quantity: int, supplier: string)

  /** The closed vocabulary of `Bill.paymentMode`. */
  datatype PaymentMode = Cash | Card | UPI

  function PaymentModeName(m: PaymentMode): string
  {
    match m
    case Cash => "Cash"
    case Card => "Card"
    case UPI => "UPI"
  }

  /** Schema validation of `paymentMode`: an absent value takes the default `Cash`,
      a present one must be one of the enum's names or the document is rejected. */
  function ParsePaymentMode(s: Option<string>): (r: Option<PaymentMode>)
    ensures s.None? ==> r == Some(Cash)
    ensures s.Some? ==> (r.Some? <==> s.value in {"Cash", "Card", "UPI"})
  {
    match s
    case None => Some(Cash)
    case Some(name) =>
      if name == "Cash" then Some(Cash)
      else if name == "Card" then Some(Card)
      else if name == "UPI" then Some(UPI)
      else None
  }

  /** Every mode survives the trip through its stored name. */
  lemma {:induction false} PaymentModeRoundTrip(m: PaymentMode)
    ensures ParsePaymentMode(Some(PaymentModeName(m))) == Some(m)
  {
  }

  /** A present name is accepted only if it is exactly the name of the mode it yields. */
  lemma {:induction false} PaymentModeExact(s: string)
    ensures ParsePaymentMode(Some(s)).Some? ==> PaymentModeName(ParsePaymentMode(Some(s)).value) == s
  {
  }

  const WalkInCustomer: string := "Walk-in Customer"

  /** One line of a bill: a snapshot of the product's name and price at checkout. */
  datatype BillItem = BillItem(product: ProductId, productName: string, quantity: int, price: int, amount: int)

  datatype Bill = Bill(
    id: BillId,
    customerName: string,
    items: seq<BillItem>,
    totalAmount: int,
    paymentMode: PaymentMode,
    soldBy: UserId,
    date: Day)

  /** `IN` is a restock, `OUT` a sale. */
  datatype Direction = IN | OUT

  /** A stock movement. `user` and `remarks` are the schema's optional fields. */
  datatype Transaction = Transaction(
    product: ProductId,
    kind: Direction,
    quantity: int,
    user: Option<UserId>,
    date: Day,
    remarks: Option<string>)

  /** The legacy per-product sale record that the statistics are computed from. */
  datatype Sale = Sale(product: ProductId, quantitySold: int, totalPrice: int, soldBy: UserId, date: Day)

  /** Decimal rendering of an id, as it appears inside a remark. */
  function IdText(n: nat): (s: string)
    ensures |s| >= 1
    ensures forall i :: 0 <= i < |s| ==> '0' <= s[i] <= '9'
  {
    if n < 10 then [DigitChar(n)] else IdText(n / 10) + [DigitChar(n % 10)]
  }

  function DigitChar(d: nat): (c: char)
    requires d < 10
    ensures '0' <= c <= '9'
  {
    (48 + d) as char
  }

  /** Reads back a string of decimal digits. */
  function ParseId(s: string): nat
    requires forall i :: 0 <= i < |s| ==> '0' <= s[i] <= '9'
  {
    if s == [] then 0 else ParseId(s[..|s| - 1]) * 10 + ((s[|s| - 1] as int) - 48)
  }

  /** The rendering of an id can be read back, so different ids give different texts. */
  lemma {:induction false} IdTextRoundTrip(n: nat)
    ensures ParseId(IdText(n)) == n
  {
    if n >= 10 {
      IdTextRoundTrip(n / 10);
      var s := IdText(n);
      assert s[..|s| - 1] == IdText(n / 10);
    }
  }

  lemma {:induction false} IdTextInjective(m: nat, n: nat)
    ensures IdText(m) == IdText(n) ==> m == n
  {
    IdTextRoundTrip(m);
    IdTextRoundTrip(n);
  }
}

=== FILE: ProductController.dfy ===
/** The catalog operations: look up, create, update, delete and restock a product.
    Restocking is the only one of them that writes to the movement ledger. */
module ProductController {
  import opened Models
  import opened Database

  /** `getProductById`: the stored product, or 404. */
  method GetProductById(db: Store, id: ProductId) returns (r: Result<Product>)
    ensures id in db.products <==> r.Success?
    ensures id in db.products ==> r.value == db.products[id]
    ensures id !in db.products ==> r.error == Error(404, "Product not found")
  {
    if id in db.products {
      r := Success(db.products[id]);
    } else {
      r := Failure(Error(404, "Product not found"));
    }
  }

  /** `createProduct`: a new document carrying exactly the given fields, under a fresh id,
      at the end of the collection. */
  method CreateProduct(db: Store, name: string, category: string, price: int, quantity: int, supplier: string)
    returns (id: ProductId, created: Product)
    requires db.Valid()
    modifies db
    ensures db.Valid()
    ensures id == old(db.nextId) && db.nextId == old(db.nextId) + 1
    ensures id !in old(db.products)
    ensures created == Product(name, category, price, quantity, supplier)
    ensures db.products == old(db.products)[id := created]
    ensures db.order == old(db.order) + [id]
    ensures db.bills == old(db.bills) && db.sales == old(db.sales) && db.transactions == old(db.transactions)
  {
    id := db.nextId;
    assert id !in db.order;
    created := Product(name, category, price, quantity, supplier);
    db.nextId := db.nextId + 1;
    db.products := db.products[id := created];
    db.order := db.order + [id];
  }

  /** The body of a `PUT /api/products/:id`. An absent field is `None`. */
  datatype ProductUpdate = ProductUpdate(
    name: Option<string>,
    category: Option<string>,
    price: Option<int>,
    quantity: Option<int>,
    supplier: Option<string>)

  /** `price || product.price`: an absent price and a price of 0 are both falsy. */
  function PriceOrElse(price: Option<int>, fallback: int): (r: int)
    ensures price.Some? && price.value != 0 ==> r == price.value
    ensures price.None? || price.value == 0 ==> r == fallback
  {
    if price.Some? && price.value != 0 then price.value else fallback
  }

  /** The product after the field-by-field assignment of `updateProduct`: the text fields
      and the price are replaced only by truthy values, the quantity whenever it is given. */
  function Patched(p: Product, u: ProductUpdate): (q: Product)
    ensures q.name == (if u.name.Some? && u.name.value != "" then u.name.value else p.name)
    ensures q.category == (if u.category.Some? && u.category.value != "" then u.category.value else p.category)
    ensures q.price == (if u.price.Some? && u.price.value != 0 then u.price.value else p.price)
    ensures q.quantity == (if u.quantity.Some? then u.quantity.value else p.quantity)
    ensures q.supplier == (if u.supplier.Some? && u.supplier.value != "" then u.supplier.value else p.supplier)
  {
    Product(
      OrElse(u.name, p.name),
      OrElse(u.category, p.category),
      PriceOrElse(u.price, p.price),
      if u.quantity.Some? then u.quantity.value else p.quantity,
      OrElse(u.supplier, p.supplier))
  }

  /** An update without fields leaves the product as it was. */
  lemma {:induction false} PatchedEmpty(p: Product)
    ensures Patched(p, ProductUpdate(None, None, None, None, None)) == p
  {
  }

  /** Applying the same update twice is the same as applying it once. */
  lemma {:induction false} PatchedIdempotent(p: Product, u: ProductUpdate)
    ensures Patched(Patched(p, u), u) == Patched(p, u)
  {
  }

  /** A quantity of 0 is stored, while a price of 0 or an empty name is ignored. */
  lemma {:induction false} PatchedZeroes(p: Product)
    ensures Patched(p, ProductUpdate(Some(""), None, Some(0), Some(0), None)) == p.(quantity := 0)
  {
  }

  /** `updateProduct`: patch the stored product in place, or 404 when there is none. */
  method UpdateProduct(db: Store, id: ProductId, u: ProductUpdate) returns (r: Result<Product>)
    requires db.Valid()
    modifies db
    ensures db.Valid()
    ensures id !in old(db.products) ==> r == Failure(Error(404, "Product not found")) && unchanged(db)
    ensures id in old(db.products) ==>
      && r == Success(Patched(old(db.products)[id], u))
      && db.products == old(db.products)[id := r.value]
      && db.order == old(db.order) && db.nextId == old(db.nextId)
      && db.bills == old(db.bills) && db.sales == old(db.sales) && db.transactions == old(db.transactions)
  {
    if id in db.products {
      var product := db.products[id];
      product := product.(name := OrElse(u.name, product.name));
      product := product.(category := OrElse(u.category, product.category));
      product := product.(price := PriceOrElse(u.price, product.price));
      product := product.(quantity := if u.quantity.Some? then u.quantity.value else product.quantity);
      product := product.(supplier := OrElse(u.supplier, product.supplier));
      db.products := db.products[id := product];
      r := Success(product);
    } else {
      r := Failure(Error(404, "Product not found"));
    }
  }

  /** `deleteProduct`: remove exactly that product, or 404 when there is none. */
  method DeleteProduct(db: Store, id: ProductId) returns (r: Result<string>)
    requires db.Valid()
    modifies db
    ensures db.Valid()
    ensures id !in old(db.products) ==> r == Failure(Error(404, "Product not found")) && unchanged(db)
    ensures id in old(db.products) ==>
      && r == Success("Product removed")
      && db.products == old(db.products) - {id}
      && db.order == Without(old(db.order), id)
      && db.nextId == old(db.nextId)
      && db.bills == old(db.bills) && db.sales == old(db.sales) && db.transactions == old(db.transactions)
  {
    if id in db.products {
      db.products := db.products - {id};
      db.order := Without(db.order, id);
      r := Success("Product removed");
    } else {
      r := Failure(Error(404, "Product not found"));
    }
  }

  /** The ledger entry of a restock: it raises the product's ledger balance by `quantity`
      and no other's, and is remarked "Manual Restock" when no remark is given. */
  function InEntry(id: ProductId, quantity: int, actor: UserId, now: Day, remarks: Option<string>): (t: Transaction)
    ensures Net([t], id) == quantity
    ensures forall other :: other != id ==> Net([t], other) == 0
    ensures t.remarks == Some(if remarks.Some? && remarks.value != "" then remarks.value else "Manual Restock")
  {
    Transaction(id, IN, quantity, Some(actor), now, Some(OrElse(remarks, "Manual Restock")))
  }

  /** `restockProduct`: raise the stock by `quantity` and append one IN Transaction; 404 and
      no write when the product does not exist. */
  method RestockProduct(db: Store, id: ProductId, quantity: int, remarks: Option<string>, actor: UserId, now: Day)
    returns (r: Result<Product>)
    requires db.Valid()
    modifies db
    ensures db.Valid()
    ensures id !in old(db.products) ==> r == Failure(Error(404, "Product not found")) && unchanged(db)
    ensures id in old(db.products) ==>
      && r == Success(old(db.products)[id].(quantity := old(db.products)[id].quantity + quantity))
      && db.products == old(db.products)[id := r.value]
      && db.transactions == old(db.transactions) + [InEntry(id, quantity, actor, now, remarks)]
      && db.order == old(db.order) && db.nextId == old(db.nextId)
      && db.bills == old(db.bills) && db.sales == old(db.sales)
  {
    if id in db.products {
      var product := db.products[id];
      product := product.(quantity := product.quantity + quantity);
      db.products := db.products[id := product];
      db.transactions := db.transactions + [Transaction(id, IN, quantity, Some(actor), now, Some(OrElse(remarks, "Manual Restock")))];
      r := Success(product);
    } else {
      r := Failure(Error(404, "Product not found"));
    }
  }

  /** A restock moves the stock by exactly what it adds to the ledger: for every product,
      the change of its quantity equals the change of its ledger balance. */
  lemma {:induction false} RestockMatchesLedger(catalog: map<ProductId, Product>, txs: seq<Transaction>, id: ProductId,
                             quantity: int, actor: UserId, now: Day, remarks: Option<string>, other: ProductId)
    requires id in catalog && other in catalog
    ensures catalog[id := catalog[id].(quantity := catalog[id].quantity + quantity)][other].quantity - catalog[other].quantity
         == Net(txs + [InEntry(id, quantity, actor, now, remarks)], other) - Net(txs, other)
  {
    NetAppend(txs, [InEntry(id, quantity, actor, now, remarks)], other);
    assert [InEntry(id, quantity, actor, now, remarks)][..0] == [];
  }
}

=== FILE: SaleAggregates.dfy ===
/** The read-side figures of the dashboard and the daily report, as values computed
    from the product list and the Sale log. None of them reads the Transaction log. */
module SaleAggregates {
  import opened Models
  import opened Database

  // ---------------------------------------------------------------------------
  // Figures over the product list

  const LowStockThreshold: int := 5

  /** No product has a negative price or quantity. */
  predicate NoNegativeStock(ps: seq<Product>)
  {
    forall i :: 0 <= i < |ps| ==> ps[i].price >= 0 && ps[i].quantity >= 0
  }

  /** `products.reduce((acc, p) => acc + p.price * p.quantity, 0)`. */
  function StockValue(ps: seq<Product>): (v: int)
    ensures NoNegativeStock(ps) ==> v >= 0
  {
    if ps == [] then 0 else StockValue(ps[..|ps| - 1]) + ps[|ps| - 1].price * ps[|ps| - 1].quantity
  }

  /** Taking `q` units at price `a` out of `b` units lowers their value by `a * q`. */
  lemma {:induction false} ValueAfterTaking(a: int, b: int, q: int)
    ensures a * (b - q) == a * b - a * q
  {
  }

  /** Replacing one listed product changes the stock value by the difference of its value;
      replacing an unlisted one changes nothing. */
  lemma {:induction false} StockValueUpdate(catalog: map<ProductId, Product>, order: seq<ProductId>, id: ProductId, p: Product)
    requires forall i :: 0 <= i < |order| ==> order[i] in catalog
    requires Distinct(order) && id in catalog
    ensures StockValue(InOrder(catalog[id := p], order)) ==
      StockValue(InOrder(catalog, order)) + (if id in order then p.price * p.quantity - catalog[id].price * catalog[id].quantity else 0)
  {
    if order != [] {
      var front := order[..|order| - 1];
      StockValueUpdate(catalog, front, id, p);
      assert InOrder(catalog, order)[..|order| - 1] == InOrder(catalog, front);
      assert InOrder(catalog[id := p], order)[..|order| - 1] == InOrder(catalog[id := p], front);
      assert order == front + [order[|order| - 1]];
      assert order[|order| - 1] !in front;
    }
  }

  /** Taking `q` units of one listed product lowers the stock value by its price times `q`. */
  lemma {:induction false} TakeLowersStockValue(c: map<ProductId, Product>, taken: map<ProductId, Product>, order: seq<ProductId>, p: ProductId, q: int)
    requires Distinct(order) && (forall i :: 0 <= i < |order| ==> order[i] in c)
    requires p in order && p in c && taken == c[p := c[p].(quantity := c[p].quantity - q)]
    ensures StockValue(InOrder(taken, order)) == StockValue(InOrder(c, order)) - c[p].price * q
  {
    var before := c[p];
    StockValueUpdate(c, order, p, taken[p]);
    ShiftByTaking(StockValue(InOrder(c, order)), StockValue(InOrder(taken, order)), before.price, before.quantity, q);
  }

  /** The arithmetic step of `TakeLowersStockValue`. */
  lemma {:induction false} ShiftByTaking(v0: int, v1: int, a: int, b: int, q: int)
    requires v1 == v0 + (a * (b - q) - a * b)
    ensures v1 == v0 - a * q
  {
    ValueAfterTaking(a, b, q);
  }

  /** Positions of the products below the low-stock threshold. */
  function LowPositions(ps: seq<Product>): set<nat>
  {
    set i: nat | i < |ps| && ps[i].quantity < LowStockThreshold
  }

  /** `products.filter(p => p.quantity < 5).length`: the number of products strictly below 5. */
  function LowStockCount(ps: seq<Product>): (n: nat)
    ensures n == |LowPositions(ps)|
    ensures n <= |ps|
  {
    if ps == [] then
      assert LowPositions(ps) == {};
      0
    else
      var front := ps[..|ps| - 1];
      var last := |ps| - 1;
      var n := LowStockCount(front);
      assert last !in LowPositions(front);
      if ps[last].quantity < LowStockThreshold then
        assert LowPositions(ps) == LowPositions(front) + {last};
        n + 1
      else
        assert LowPositions(ps) == LowPositions(front);
        n
  }

  /** The categories that occur in the product list. */
  function Categories(ps: seq<Product>): set<string>
  {
    set p | p in ps :: p.category
  }

  /** The number of products in category `c`. */
  function CountCategory(ps: seq<Product>, c: string): nat
  {
    if ps == [] then 0
    else CountCategory(ps[..|ps| - 1], c) + (if ps[|ps| - 1].category == c then 1 else 0)
  }

  ghost function PickKey(m: map<string, nat>): (k: string)
    requires m != map[]
    ensures k in m
  {
    var k :| k in m; k
  }

  /** The sum of the values of a map, in no particular order. */
  ghost function SumValues(m: map<string, nat>): nat
    decreases |m|
  {
    if m == map[] then 0
    else
      var k := PickKey(m);
      assert |m - {k}| < |m| by { assert (m - {k}).Keys < m.Keys; }
      m[k] + SumValues(m - {k})
  }

  /** Any key can be taken out first. */
  lemma {:induction false} SumValuesRemove(m: map<string, nat>, k: string)
    requires k in m
    ensures SumValues(m) == m[k] + SumValues(m - {k})
    decreases |m|
  {
    var j := PickKey(m);
    if j != k {
      assert |m - {j}| < |m| by { assert (m - {j}).Keys < m.Keys; }
      SumValuesRemove(m - {j}, k);
      assert m - {j} - {k} == m - {k} - {j};
      assert |m - {k}| < |m| by { assert (m - {k}).Keys < m.Keys; }
      SumValuesRemove(m - {k}, j);
    }
  }

  lemma {:induction false} SumValuesUpdate(m: map<string, nat>, k: string, v: nat)
    ensures SumValues(m[k := v]) == SumValues(m) - (if k in m then m[k] else 0) + v
  {
    var m' := m[k := v];
    SumValuesRemove(m', k);
    assert m' - {k} == m - {k};
    if k in m {
      SumValuesRemove(m, k);
    } else {
      assert m - {k} == m;
    }
  }

  /** The `forEach` that builds `categoryDistribution`: one entry per category that occurs,
      holding the number of its products; the counts add up to the number of products. */
  method CategoryDistribution(ps: seq<Product>) returns (categories: map<string, nat>)
    ensures categories.Keys == Categories(ps)
    ensures forall c :: c in categories ==> categories[c] == CountCategory(ps, c)
    ensures SumValues(categories) == |ps|
  {
    categories := map[];
    for i := 0 to |ps|
      invariant categories.Keys == Categories(ps[..i])
      invariant forall c :: CountCategory(ps[..i], c) == (if c in categories then categories[c] else 0)
      invariant SumValues(categories) == i
    {
      var c := ps[i].category;
      SumValuesUpdate(categories, c, (if c in categories then categories[c] else 0) + 1);
      CountStep(ps, i);
      categories := categories[c := (if c in categories then categories[c] else 0) + 1];
    }
    assert ps[..|ps|] == ps;
  }

  /** One more product adds its category and counts once towards it. */
  lemma {:induction false} CountStep(ps: seq<Product>, i: nat)
    requires i < |ps|
    ensures Categories(ps[..i + 1]) == Categories(ps[..i]) + {ps[i].category}
    ensures forall c :: CountCategory(ps[..i + 1], c) == CountCategory(ps[..i], c) + (if ps[i].category == c then 1 else 0)
  {
    assert ps[..i + 1][..i] == ps[..i];
    assert ps[..i + 1] == ps[..i] + [ps[i]];
  }

  // ---------------------------------------------------------------------------
  // Figures over the Sale log

  /** What a per-day figure adds up for each sale: one order, its price, or its units. */
  datatype Measure = Orders | Revenue | Items

  function Weight(s: Sale, m: Measure): int
  {
    match m
    case Orders => 1
    case Revenue => s.totalPrice
    case Items => s.quantitySold
  }

  /** A measure summed over the sales dated `day`. */
  function SumOn(sales: seq<Sale>, day: Day, m: Measure): int
  {
    if sales == [] then 0
    else SumOn(sales[..|sales| - 1], day, m) + (if sales[|sales| - 1].date == day then Weight(sales[|sales| - 1], m) else 0)
  }

  /** A measure summed over all sales. */
  function SumAll(sales: seq<Sale>, m: Measure): int
  {
    if sales == [] then 0 else SumAll(sales[..|sales| - 1], m) + Weight(sales[|sales| - 1], m)
  }

  lemma {:induction false} SumAllOrders(sales: seq<Sale>)
    ensures SumAll(sales, Orders) == |sales|
  {
    if sales != [] {
      SumAllOrders(sales[..|sales| - 1]);
    }
  }

  lemma {:induction false} SumAllAppend(a: seq<Sale>, b: seq<Sale>, m: Measure)
    ensures SumAll(a + b, m) == SumAll(a, m) + SumAll(b, m)
  {
    if b == [] {
      assert a + b == a;
    } else {
      SumAllAppend(a, b[..|b| - 1], m);
      assert (a + b)[..|a + b| - 1] == a + b[..|b| - 1];
    }
  }

  /** `todaysRevenue`: the summed `totalPrice` of the sales dated on or after `today`. */
  function RevenueSince(sales: seq<Sale>, today: Day): (r: int)
    ensures (forall i :: 0 <= i < |sales| ==> sales[i].date < today) ==> r == 0
  {
    if sales == [] then 0
    else RevenueSince(sales[..|sales| - 1], today) + (if sales[|sales| - 1].date >= today then sales[|sales| - 1].totalPrice else 0)
  }

  lemma {:induction false} RevenueSinceAppend(a: seq<Sale>, b: seq<Sale>, today: Day)
    ensures RevenueSince(a + b, today) == RevenueSince(a, today) + RevenueSince(b, today)
  {
    if b == [] {
      assert a + b == a;
    } else {
      RevenueSinceAppend(a, b[..|b| - 1], today);
      assert (a + b)[..|a + b| - 1] == a + b[..|b| - 1];
    }
  }

  /** With no sale dated after today, today's revenue is the revenue of today's sales. */
  lemma {:induction false} RevenueSinceIsToday(sales: seq<Sale>, today: Day)
    requires forall i :: 0 <= i < |sales| ==> sales[i].date <= today
    ensures RevenueSince(sales, today) == SumOn(sales, today, Revenue)
  {
    if sales != [] {
      RevenueSinceIsToday(sales[..|sales| - 1], today);
    }
  }

  /** One point of the seven-day chart. */
  datatype DayPoint = DayPoint(day: Day, sales: int, revenue: int)

  /** The `for (let i = 6; i >= 0; i--)` loop of `getStats`: seven points, oldest first,
      ending today, each the number and the revenue of that day's sales. */
  method Last7Days(sales: seq<Sale>, today: Day) returns (series: seq<DayPoint>)
    ensures |series| == 7
    ensures forall k :: 0 <= k < 7 ==>
      series[k] == DayPoint(today - 6 + k, SumOn(sales, today - 6 + k, Orders), SumOn(sales, today - 6 + k, Revenue))
  {
    series := [];
    var i := 6;
    while i >= 0
      invariant -1 <= i <= 6
      invariant |series| == 6 - i
      invariant forall k :: 0 <= k < |series| ==>
        series[k] == DayPoint(today - 6 + k, SumOn(sales, today - 6 + k, Orders), SumOn(sales, today - 6 + k, Revenue))
    {
      var day := today - i;
      var salesOnDay := SumOn(sales, day, Orders);
      var revenueOnDay := SumOn(sales, day, Revenue);
      series := series + [DayPoint(day, salesOnDay, revenueOnDay)];
      i := i - 1;
    }
  }

  // ---------------------------------------------------------------------------
  // Top sellers: group by product, sort by units sold, keep five, join the catalog

  /** Units of a product sold, over the whole Sale log. */
  function Sold(sales: seq<Sale>, id: ProductId): int
  {
    if sales == [] then 0
    else Sold(sales[..|sales| - 1], id) + (if sales[|sales| - 1].product == id then sales[|sales| - 1].quantitySold else 0)
  }

  /** The products that occur in the Sale log. */
  function SoldIds(sales: seq<Sale>): set<ProductId>
  {
    set s | s in sales :: s.product
  }

  /** The `$group` keys: each product of the Sale log once. The database gives the groups
      no particular order; the model lists them in order of first sale. */
  function SoldProducts(sales: seq<Sale>): (ids: seq<ProductId>)
    ensures Distinct(ids)
    ensures forall id :: id in ids <==> id in SoldIds(sales)
  {
    if sales == [] then []
    else
      var front := sales[..|sales| - 1];
      var last := sales[|sales| - 1];
      assert sales == front + [last];
      assert SoldIds(sales) == SoldIds(front) + {last.product};
      var ids := SoldProducts(front);
      if last.product in ids then ids else ids + [last.product]
  }

  /** A `$group` result: a product and its summed `quantitySold`. */
  datatype Seller = Seller(id: ProductId, totalSold: int)

  function Groups(sales: seq<Sale>): (g: seq<Seller>)
    ensures |g| == |SoldProducts(sales)|
    ensures forall i :: 0 <= i < |g| ==> g[i] == Seller(SoldProducts(sales)[i], Sold(sales, SoldProducts(sales)[i]))
  {
    var ids := SoldProducts(sales);
    seq(|ids|, i requires 0 <= i < |ids| => Seller(ids[i], Sold(sales, ids[i])))
  }

  predicate SortedBySold(s: seq<Seller>)
  {
    forall i, j :: 0 <= i < j < |s| ==> s[i].totalSold >= s[j].totalSold
  }

  predicate DistinctSellers(s: seq<Seller>)
  {
    forall i, j :: 0 <= i < j < |s| ==> s[i].id != s[j].id
  }

  /** Insert after every entry that sold at least as much, so equal totals keep their order. */
  function InsertBySold(x: Seller, s: seq<Seller>): (r: seq<Seller>)
    ensures multiset(r) == multiset(s) + multiset{x}
  {
    if s == [] then [x]
    else if x.totalSold > s[0].totalSold then [x] + s
    else
      assert s == [s[0]] + s[1..];
      [s[0]] + InsertBySold(x, s[1..])
  }

  lemma {:induction false} InsertSorted(x: Seller, s: seq<Seller>)
    requires SortedBySold(s)
    ensures SortedBySold(InsertBySold(x, s))
  {
    if s != [] && x.totalSold <= s[0].totalSold {
      InsertSorted(x, s[1..]);
      var rest := InsertBySold(x, s[1..]);
      forall j | 0 <= j < |rest|
        ensures s[0].totalSold >= rest[j].totalSold
      {
        var y := rest[j];
        assert y in multiset(rest);
        if y != x {
          assert y in multiset(s[1..]);
          var k :| 0 <= k < |s[1..]| && s[1..][k] == y;
          assert s[k + 1] == y;
        }
      }
    }
  }

  /** `$sort: { totalSold: -1 }`. */
  function SortBySold(s: seq<Seller>): (r: seq<Seller>)
    ensures SortedBySold(r)
    ensures multiset(r) == multiset(s)
  {
    if s == [] then []
    else
      assert s == s[..|s| - 1] + [s[|s| - 1]];
      InsertSorted(s[|s| - 1], SortBySold(s[..|s| - 1]));
      InsertBySold(s[|s| - 1], SortBySold(s[..|s| - 1]))
  }

  /** A permutation of a list of distinct sellers has distinct sellers too. */
  lemma {:induction false} SortKeepsDistinct(s: seq<Seller>)
    requires DistinctSellers(s)
    ensures DistinctSellers(SortBySold(s))
  {
    if s != [] {
      var front := s[..|s| - 1];
      var x := s[|s| - 1];
      SortKeepsDistinct(front);
      var sorted := SortBySold(front);
      assert forall y :: y in sorted ==> y in multiset(front);
      assert forall y :: y in sorted ==> y.id != x.id;
      InsertKeepsDistinct(x, sorted);
    }
  }

  lemma {:induction false} InsertKeepsDistinct(x: Seller, s: seq<Seller>)
    requires SortedBySold(s) && DistinctSellers(s)
    requires forall y :: y in s ==> y.id != x.id
    ensures DistinctSellers(InsertBySold(x, s))
  {
    if s != [] && x.totalSold <= s[0].totalSold {
      InsertKeepsDistinct(x, s[1..]);
      var rest := InsertBySold(x, s[1..]);
      assert forall y :: y in rest ==> y in multiset(s[1..]) + multiset{x};
      assert forall y :: y in rest ==> y.id != s[0].id;
      assert InsertBySold(x, s) == [s[0]] + rest;
    }
  }

  /** An entry of the `topProducts` answer: the `$project` keeps `_id`, `name` and `totalSold`. */
  datatype TopProduct = TopProduct(id: ProductId, name: string, totalSold: int)

  /** `$lookup` + `$unwind`: join each seller with its catalog entry, dropping those
      whose product no longer exists. */
  function JoinCatalog(s: seq<Seller>, catalog: map<ProductId, Product>): (r: seq<TopProduct>)
    ensures |r| <= |s|
    ensures forall i :: 0 <= i < |r| ==>
      r[i].id in catalog && r[i].name == catalog[r[i].id].name && Seller(r[i].id, r[i].totalSold) in s
    ensures forall y :: y in s && y.id in catalog ==> TopProduct(y.id, catalog[y.id].name, y.totalSold) in r
    ensures |r| == |s| <==> forall y :: y in s ==> y.id in catalog
  {
    if s == [] then []
    else
      var front := s[..|s| - 1];
      var y := s[|s| - 1];
      assert s == front + [y];
      var r := JoinCatalog(front, catalog);
      if y.id in catalog then r + [TopProduct(y.id, catalog[y.id].name, y.totalSold)] else r
  }

  /** Best seller first, no product twice. */
  predicate RankedTop(r: seq<TopProduct>)
  {
    forall i, j :: 0 <= i < j < |r| ==> r[i].totalSold >= r[j].totalSold && r[i].id != r[j].id
  }

  lemma {:induction false} JoinCatalogOrder(s: seq<Seller>, catalog: map<ProductId, Product>)
    requires SortedBySold(s) && DistinctSellers(s)
    ensures RankedTop(JoinCatalog(s, catalog))
  {
    if s != [] {
      var front := s[..|s| - 1];
      var y := s[|s| - 1];
      JoinCatalogOrder(front, catalog);
      var r := JoinCatalog(front, catalog);
      forall i | 0 <= i < |r|
        ensures r[i].totalSold >= y.totalSold && r[i].id != y.id
      {
        var z := Seller(r[i].id, r[i].totalSold);
        assert z in front;
        var k :| 0 <= k < |front| && front[k] == z;
        assert s[k] == z;
      }
      if y.id in catalog {
        var r2 := r + [TopProduct(y.id, catalog[y.id].name, y.totalSold)];
        assert JoinCatalog(s, catalog) == r2;
        forall i, j | 0 <= i < j < |r2|
          ensures r2[i].totalSold >= r2[j].totalSold && r2[i].id != r2[j].id
        {
          assert r2[i] == r[i];
          if j < |r| {
            assert r2[j] == r[j];
          } else {
            assert r2[j].totalSold == y.totalSold && r2[j].id == y.id;
          }
        }
      }
    }
  }

  /** `$limit: 5`. */
  function Take5(s: seq<Seller>): (r: seq<Seller>)
    ensures |r| == (if |s| <= 5 then |s| else 5) && r == s[..|r|]
  {
    if |s| <= 5 then s else s[..5]
  }

  /** `topProducts`: the pipeline group, sort, limit, lookup, unwind, project. The limit
      comes before the lookup, so a deleted product among the five best sellers takes a
      place and is then dropped. */
  function TopProducts(sales: seq<Sale>, catalog: map<ProductId, Product>): (r: seq<TopProduct>)
    ensures |r| <= 5
    ensures forall i :: 0 <= i < |r| ==> r[i].id in catalog && r[i].name == catalog[r[i].id].name
  {
    JoinCatalog(Take5(SortBySold(Groups(sales))), catalog)
  }

  function TopIds(r: seq<TopProduct>): set<ProductId>
  {
    set t | t in r :: t.id
  }

  /** Every group holds a product that sold, with its units sold over the whole log. */
  lemma {:induction false} GroupsExact(sales: seq<Sale>, z: Seller)
    requires z in multiset(Groups(sales))
    ensures z.id in SoldIds(sales) && z.totalSold == Sold(sales, z.id)
  {
    var g := Groups(sales);
    assert z in g;
    var k :| 0 <= k < |g| && g[k] == z;
  }

  /** Every product that sold has a group. */
  lemma {:induction false} GroupsCover(sales: seq<Sale>, id: ProductId)
    requires id in SoldIds(sales)
    ensures Seller(id, Sold(sales, id)) in multiset(Groups(sales))
  {
    var ids := SoldProducts(sales);
    var k :| 0 <= k < |ids| && ids[k] == id;
    assert Groups(sales)[k] == Seller(id, Sold(sales, id));
  }

  lemma {:induction false} GroupsDistinct(sales: seq<Sale>)
    ensures DistinctSellers(Groups(sales))
  {
    var ids := SoldProducts(sales);
    assert Distinct(ids);
  }

  /** At most five entries, best seller first, each a distinct product still in the catalog
      with the units sold over the whole log; a catalog product that sold but is not listed
      sold no more than any listed one. */
  lemma {:induction false} TopProductsSpec(sales: seq<Sale>, catalog: map<ProductId, Product>)
    ensures var r := TopProducts(sales, catalog);
      && |r| <= 5
      && RankedTop(r)
      && (forall i :: 0 <= i < |r| ==>
            r[i].id in catalog && r[i].name == catalog[r[i].id].name
            && r[i].id in SoldIds(sales) && r[i].totalSold == Sold(sales, r[i].id))
      && (forall id, i :: id in catalog && id in SoldIds(sales) && id !in TopIds(r) && 0 <= i < |r| ==>
            Sold(sales, id) <= r[i].totalSold)
  {
    TopOrder(sales, catalog);
    var r := TopProducts(sales, catalog);
    forall i | 0 <= i < |r|
      ensures r[i].id in SoldIds(sales) && r[i].totalSold == Sold(sales, r[i].id)
    {
      TopEntryExact(sales, catalog, i);
    }
    forall id, i | id in catalog && id in SoldIds(sales) && id !in TopIds(r) && 0 <= i < |r|
      ensures Sold(sales, id) <= r[i].totalSold
    {
      TopBeatsRest(sales, catalog, id, i);
    }
  }

  lemma {:induction false} TopOrder(sales: seq<Sale>, catalog: map<ProductId, Product>)
    ensures |TopProducts(sales, catalog)| <= 5 && RankedTop(TopProducts(sales, catalog))
  {
    var g := Groups(sales);
    var top := Take5(SortBySold(g));
    GroupsDistinct(sales);
    SortKeepsDistinct(g);
    assert forall k :: 0 <= k < |top| ==> top[k] == SortBySold(g)[k];
    assert SortedBySold(top) && DistinctSellers(top);
    JoinCatalogOrder(top, catalog);
  }

  lemma {:induction false} TopEntryExact(sales: seq<Sale>, catalog: map<ProductId, Product>, i: nat)
    requires i < |TopProducts(sales, catalog)|
    ensures var t := TopProducts(sales, catalog)[i];
      t.id in SoldIds(sales) && t.totalSold == Sold(sales, t.id)
  {
    var sorted := SortBySold(Groups(sales));
    var top := Take5(sorted);
    var r := JoinCatalog(top, catalog);
    var z := Seller(r[i].id, r[i].totalSold);
    assert z in top;
    assert z in multiset(sorted);
    GroupsExact(sales, z);
  }

  lemma {:induction false} TopBeatsRest(sales: seq<Sale>, catalog: map<ProductId, Product>, id: ProductId, i: nat)
    requires id in catalog && id in SoldIds(sales)
    requires id !in TopIds(TopProducts(sales, catalog))
    requires i < |TopProducts(sales, catalog)|
    ensures Sold(sales, id) <= TopProducts(sales, catalog)[i].totalSold
  {
    var sorted := SortBySold(Groups(sales));
    var top := Take5(sorted);
    var r := JoinCatalog(top, catalog);
    var y := Seller(id, Sold(sales, id));
    GroupsCover(sales, id);
    assert y in sorted;
    var p :| 0 <= p < |sorted| && sorted[p] == y;
    assert |top| <= p;
    var z := Seller(r[i].id, r[i].totalSold);
    assert z in top;
    var q :| 0 <= q < |top| && top[q] == z;
    assert sorted[q] == z;
  }

  /** The other direction: each of the five best-ranked groups whose product is still in
      the catalog is listed, with its name and its units sold. */
  lemma {:induction false} TopListsCatalogued(sales: seq<Sale>, catalog: map<ProductId, Product>, y: Seller)
    requires y in Take5(SortBySold(Groups(sales))) && y.id in catalog
    ensures TopProduct(y.id, catalog[y.id].name, y.totalSold) in TopProducts(sales, catalog)
    ensures y.id in TopIds(TopProducts(sales, catalog))
  {
  }

  /** The sold products that sold at least as many units as `id`, `id` included. */
  function Rivals(sales: seq<Sale>, id: ProductId): set<ProductId>
  {
    set x | x in SoldIds(sales) && Sold(sales, x) >= Sold(sales, id)
  }

  /** Whatever order ties are broken in: a catalog product that sold, and that at most four
      other sold products match or beat, is listed. */
  lemma {:induction false} TopIncludesLeaders(sales: seq<Sale>, catalog: map<ProductId, Product>, id: ProductId)
    requires id in catalog && id in SoldIds(sales)
    requires |Rivals(sales, id)| <= 5
    ensures id in TopIds(TopProducts(sales, catalog))
  {
    var sorted := SortBySold(Groups(sales));
    var y := Seller(id, Sold(sales, id));
    GroupsCover(sales, id);
    assert y in sorted;
    var p :| 0 <= p < |sorted| && sorted[p] == y;
    RankWithinRivals(sales, id, p);
    assert Take5(sorted)[p] == y;
    TopListsCatalogued(sales, catalog, y);
  }

  /** Every group ranked at or before a product sold at least as much as it: its rank is
      below the number of its rivals. */
  lemma {:induction false} RankWithinRivals(sales: seq<Sale>, id: ProductId, p: nat)
    requires p < |SortBySold(Groups(sales))| && SortBySold(Groups(sales))[p] == Seller(id, Sold(sales, id))
    ensures p < |Rivals(sales, id)|
  {
    var g := Groups(sales);
    var sorted := SortBySold(g);
    GroupsDistinct(sales);
    SortKeepsDistinct(g);
    PrefixIdCount(sorted, p + 1);
    forall x | x in PrefixIds(sorted, p + 1)
      ensures x in Rivals(sales, id)
    {
      var i :| 0 <= i < p + 1 && sorted[i].id == x;
      RankedRival(sales, id, p, i);
    }
    SubsetCard(PrefixIds(sorted, p + 1), Rivals(sales, id));
  }

  /** The ids of the first `n` sellers. */
  function PrefixIds(s: seq<Seller>, n: nat): set<ProductId>
    requires n <= |s|
  {
    set i | 0 <= i < n :: s[i].id
  }

  lemma {:induction false} PrefixIdCount(s: seq<Seller>, n: nat)
    requires DistinctSellers(s) && n <= |s|
    ensures |PrefixIds(s, n)| == n
  {
    var ids := seq(n, i requires 0 <= i < n => s[i].id);
    assert Distinct(ids);
    DistinctCard(ids);
    forall x | x in PrefixIds(s, n)
      ensures x in Elements(ids)
    {
      var i :| 0 <= i < n && s[i].id == x;
      assert ids[i] == x;
    }
    assert Elements(ids) == PrefixIds(s, n);
  }

  lemma {:induction false} RankedRival(sales: seq<Sale>, id: ProductId, p: nat, i: nat)
    requires p < |SortBySold(Groups(sales))| && SortBySold(Groups(sales))[p] == Seller(id, Sold(sales, id))
    requires i <= p
    ensures SortBySold(Groups(sales))[i].id in Rivals(sales, id)
  {
    var g := Groups(sales);
    var z := SortBySold(g)[i];
    assert z.totalSold >= Sold(sales, id);
    assert z in multiset(g);
    GroupsExact(sales, z);
  }

  /** As written, the limit is applied before the join: when the best seller has since been
      deleted from the catalog, it still takes one of the five places, and the answer is
      shorter than the limited list however many other products sold. */
  lemma {:induction false} DeletedLeaderShortens(sales: seq<Sale>, catalog: map<ProductId, Product>, id: ProductId)
    requires id in SoldIds(sales) && id !in catalog
    requires forall x :: x in SoldIds(sales) && x != id ==> Sold(sales, x) < Sold(sales, id)
    ensures |TopProducts(sales, catalog)| < |Take5(SortBySold(Groups(sales)))|
    ensures |TopProducts(sales, catalog)| <= 4
  {
    var g := Groups(sales);
    var sorted := SortBySold(g);
    GroupsDistinct(sales);
    SortKeepsDistinct(g);
    var y := Seller(id, Sold(sales, id));
    GroupsCover(sales, id);
    assert y in sorted;
    var p :| 0 <= p < |sorted| && sorted[p] == y;
    assert sorted[0] in multiset(g);
    GroupsExact(sales, sorted[0]);
    assert sorted[0].id == id;
    assert p == 0;
    assert y in Take5(sorted);
  }

  /** In a log that names each product once, a product's units sold are those of its sale. */
  lemma {:induction false} SoldOnce(sales: seq<Sale>, i: nat)
    requires forall j, k :: 0 <= j < k < |sales| ==> sales[j].product != sales[k].product
    requires i < |sales|
    ensures Sold(sales, sales[i].product) == sales[i].quantitySold
  {
    var front := sales[..|sales| - 1];
    if i < |front| {
      SoldOnce(front, i);
    } else {
      SoldAbsent(front, sales[i].product);
    }
  }

  lemma {:induction false} SoldAbsent(sales: seq<Sale>, id: ProductId)
    requires forall j :: 0 <= j < |sales| ==> sales[j].product != id
    ensures Sold(sales, id) == 0
  {
    if sales != [] {
      SoldAbsent(sales[..|sales| - 1], id);
    }
  }

  /** An instance: six products sold once each, `x` ten units and the others one. */
  function LeaderSales(x: ProductId): seq<Sale>
  {
    [Sale(x, 10, 0, 0, 0), Sale(x + 1, 1, 0, 0, 0), Sale(x + 2, 1, 0, 0, 0),
     Sale(x + 3, 1, 0, 0, 0), Sale(x + 4, 1, 0, 0, 0), Sale(x + 5, 1, 0, 0, 0)]
  }

  /** The catalog after `x` was deleted: the five other products. */
  function LeaderCatalog(x: ProductId, p: Product): map<ProductId, Product>
  {
    map[x + 1 := p, x + 2 := p, x + 3 := p, x + 4 := p, x + 5 := p]
  }

  /** Six products sold, the best seller deleted, the five others still in the catalog,
      and only four of them listed. */
  lemma {:induction false} DeletedLeaderExample(x: ProductId, p: Product)
    ensures |SoldIds(LeaderSales(x)) * LeaderCatalog(x, p).Keys| == 5
    ensures |TopProducts(LeaderSales(x), LeaderCatalog(x, p))| <= 4
  {
    LeaderSalesRanked(x);
    DeletedLeaderShortens(LeaderSales(x), LeaderCatalog(x, p), x);
    LeaderSalesCover(x, p);
    FiveKeys(x, p);
  }

  lemma {:induction false} LeaderSalesRanked(x: ProductId)
    ensures x in SoldIds(LeaderSales(x))
    ensures forall y :: y in SoldIds(LeaderSales(x)) && y != x ==> Sold(LeaderSales(x), y) < Sold(LeaderSales(x), x)
  {
    var sales := LeaderSales(x);
    assert forall j :: 0 <= j < 6 ==> sales[j].product == x + j;
    forall y | y in SoldIds(sales) && y != x
      ensures Sold(sales, y) < Sold(sales, x)
    {
      var s :| s in sales && s.product == y;
      var i :| 0 <= i < 6 && sales[i] == s;
      SoldOnce(sales, i);
      SoldOnce(sales, 0);
    }
    assert sales[0] in sales;
  }

  lemma {:induction false} LeaderSalesCover(x: ProductId, p: Product)
    ensures SoldIds(LeaderSales(x)) * LeaderCatalog(x, p).Keys == LeaderCatalog(x, p).Keys
  {
    var sales := LeaderSales(x);
    assert sales[1] in sales && sales[2] in sales && sales[3] in sales;
    assert sales[4] in sales && sales[5] in sales;
  }

  lemma {:induction false} FiveKeys(x: ProductId, p: Product)
    ensures |LeaderCatalog(x, p).Keys| == 5
  {
    var catalog := LeaderCatalog(x, p);
    assert catalog.Keys == {x + 1, x + 2, x + 3, x + 4, x + 5};
    assert |{x + 1, x + 2}| == 2;
    assert |{x + 1, x + 2, x + 3}| == 3;
    assert |{x + 1, x + 2, x + 3, x + 4}| == 4;
  }

  // ---------------------------------------------------------------------------
  // The daily report: one row per day with sales, newest day first

  predicate StrictlyDecreasing(days: seq<Day>)
  {
    forall i, j :: 0 <= i < j < |days| ==> days[i] > days[j]
  }

  function InsertDay(d: Day, days: seq<Day>): (r: seq<Day>)
    requires StrictlyDecreasing(days)
    ensures StrictlyDecreasing(r)
    ensures forall x :: x in r <==> x == d || x in days
  {
    if days == [] then [d]
    else if d > days[0] then [d] + days
    else if d == days[0] then days
    else
      var rest := InsertDay(d, days[1..]);
      assert forall x :: x in days[1..] ==> x < days[0];
      assert forall x :: x in rest ==> x < days[0];
      assert days == [days[0]] + days[1..];
      var r := [days[0]] + rest;
      assert forall i :: 0 < i < |r| ==> r[i] == rest[i - 1];
      assert forall i :: 0 < i < |r| ==> r[i] in rest;
      r
  }

  /** The days that have sales. */
  function SaleDaySet(sales: seq<Sale>): set<Day>
  {
    set s | s in sales :: s.date
  }

  /** The `$group` keys of the report, sorted by `$sort: { _id: -1 }`. */
  function SaleDays(sales: seq<Sale>): (days: seq<Day>)
    ensures StrictlyDecreasing(days)
    ensures forall d :: d in days <==> d in SaleDaySet(sales)
  {
    if sales == [] then []
    else
      var front := sales[..|sales| - 1];
      assert sales == front + [sales[|sales| - 1]];
      assert SaleDaySet(sales) == SaleDaySet(front) + {sales[|sales| - 1].date};
      InsertDay(sales[|sales| - 1].date, SaleDays(front))
  }

  /** A report row: the day, its number of sales, its revenue and its units sold. */
  datatype DayRow = DayRow(day: Day, totalOrders: int, totalRevenue: int, totalItemsSold: int)

  function RowFor(sales: seq<Sale>, day: Day): DayRow
  {
    DayRow(day, SumOn(sales, day, Orders), SumOn(sales, day, Revenue), SumOn(sales, day, Items))
  }

  function Rows(sales: seq<Sale>, days: seq<Day>): (rows: seq<DayRow>)
    ensures |rows| == |days|
    ensures forall i :: 0 <= i < |days| ==> rows[i] == RowFor(sales, days[i])
  {
    seq(|days|, i requires 0 <= i < |days| => RowFor(sales, days[i]))
  }

  /** `getDailyReport`: every row is a day with at least one sale. */
  function DailyReport(sales: seq<Sale>): (r: seq<DayRow>)
    ensures forall i :: 0 <= i < |r| ==> r[i].day in SaleDaySet(sales) && r[i].totalOrders >= 1
  {
    SaleDaysHaveOrders(sales);
    Rows(sales, SaleDays(sales))
  }

  lemma {:induction false} SaleDaysHaveOrders(sales: seq<Sale>)
    ensures forall d :: d in SaleDaySet(sales) ==> SumOn(sales, d, Orders) >= 1
  {
    forall d | d in SaleDaySet(sales)
      ensures SumOn(sales, d, Orders) >= 1
    {
      SaleDayHasOrders(sales, d);
    }
  }

  /** A day with a sale counts at least one order. */
  lemma {:induction false} SaleDayHasOrders(sales: seq<Sale>, d: Day)
    requires d in SaleDaySet(sales)
    ensures SumOn(sales, d, Orders) >= 1
  {
    var front := sales[..|sales| - 1];
    var last := sales[|sales| - 1];
    assert sales == front + [last];
    if last.date == d {
      OrdersNonNegative(front, d);
    } else {
      assert d in SaleDaySet(front);
      SaleDayHasOrders(front, d);
    }
  }

  lemma {:induction false} OrdersNonNegative(sales: seq<Sale>, d: Day)
    ensures SumOn(sales, d, Orders) >= 0
  {
    if sales != [] {
      OrdersNonNegative(sales[..|sales| - 1], d);
    }
  }

  /** One row per day that has sales, newest first, each holding the count and the sums
      of that day's sales. */
  lemma {:induction false} DailyReportSpec(sales: seq<Sale>)
    ensures var r := DailyReport(sales);
      && (forall i, j :: 0 <= i < j < |r| ==> r[i].day > r[j].day)
      && (forall d :: d in SaleDaySet(sales) <==> exists i :: 0 <= i < |r| && r[i].day == d)
      && (forall i :: 0 <= i < |r| ==>
            r[i].totalOrders == SumOn(sales, r[i].day, Orders)
            && r[i].totalRevenue == SumOn(sales, r[i].day, Revenue)
            && r[i].totalItemsSold == SumOn(sales, r[i].day, Items))
  {
    var days := SaleDays(sales);
    var r := DailyReport(sales);
    forall d | d in SaleDaySet(sales)
      ensures exists i :: 0 <= i < |r| && r[i].day == d
    {
      var i :| 0 <= i < |days| && days[i] == d;
      assert r[i].day == d;
    }
  }

  /** The report's column of a measure, summed over its rows. */
  function RowsSum(rows: seq<DayRow>, m: Measure): int
  {
    if rows == [] then 0
    else
      var row := rows[|rows| - 1];
      RowsSum(rows[..|rows| - 1], m) + (match m case Orders => row.totalOrders case Revenue => row.totalRevenue case Items => row.totalItemsSold)
  }

  /** A sale's weight counted once per listed day it falls on. */
  lemma {:induction false} RowsSumSnoc(sales: seq<Sale>, s: Sale, days: seq<Day>, m: Measure)
    requires StrictlyDecreasing(days)
    ensures RowsSum(Rows(sales + [s], days), m) == RowsSum(Rows(sales, days), m) + (if s.date in days then Weight(s, m) else 0)
  {
    if days != [] {
      var front := days[..|days| - 1];
      var d := days[|days| - 1];
      RowsSumSnoc(sales, s, front, m);
      assert Rows(sales + [s], days)[..|days| - 1] == Rows(sales + [s], front);
      assert Rows(sales, days)[..|days| - 1] == Rows(sales, front);
      assert (sales + [s])[..|sales|] == sales;
      assert s.date in days <==> s.date in front || s.date == d;
      assert d !in front;
    }
  }

  /** Summed over all its rows, each column of the report totals the whole Sale log. */
  lemma {:induction false} RowsSumCovers(sales: seq<Sale>, days: seq<Day>, m: Measure)
    requires StrictlyDecreasing(days)
    requires forall s :: s in sales ==> s.date in days
    ensures RowsSum(Rows(sales, days), m) == SumAll(sales, m)
  {
    if sales == [] {
      RowsSumEmpty(days, m);
    } else {
      var front := sales[..|sales| - 1];
      var s := sales[|sales| - 1];
      assert sales == front + [s];
      RowsSumCovers(front, days, m);
      RowsSumSnoc(front, s, days, m);
    }
  }

  lemma {:induction false} RowsSumEmpty(days: seq<Day>, m: Measure)
    ensures RowsSum(Rows([], days), m) == 0
  {
    if days != [] {
      RowsSumEmpty(days[..|days| - 1], m);
      assert Rows([], days)[..|days| - 1] == Rows([], days[..|days| - 1]);
    }
  }

  /** The report loses and double-counts nothing: its orders add up to the number of sales,
      its revenue to the summed `totalPrice`, its items to the summed `quantitySold`. */
  lemma {:induction false} DailyReportConserves(sales: seq<Sale>)
    ensures RowsSum(DailyReport(sales), Orders) == |sales|
    ensures RowsSum(DailyReport(sales), Revenue) == SumAll(sales, Revenue)
    ensures RowsSum(DailyReport(sales), Items) == SumAll(sales, Items)
  {
    var days := SaleDays(sales);
    assert forall s :: s in sales ==> s.date in SaleDaySet(sales);
    RowsSumCovers(sales, days, Orders);
    RowsSumCovers(sales, days, Revenue);
    RowsSumCovers(sales, days, Items);
    SumAllOrders(sales);
  }
}

=== FILE: SaleController.dfy ===
/** The legacy single-product sale and the dashboard statistics. */
module SaleController {
  import opened Models
  import opened Database
  import opened SaleAggregates

  /** `createSale`: 404 for an unknown product, 400 when fewer units are on hand than asked
      for; otherwise one Sale priced at the current catalog price is logged and the stock
      lowered by the units sold. No Transaction is written. */
  method CreateSale(db: Store, id: ProductId, quantitySold: int, actor: UserId, now: Day) returns (r: Result<Sale>)
    requires db.Valid()
    modifies db
    ensures db.Valid()
    ensures id !in old(db.products) ==> r == Failure(Error(404, "Product not found")) && unchanged(db)
    ensures id in old(db.products) && old(db.products)[id].quantity < quantitySold ==>
      r == Failure(Error(400, "Insufficient stock")) && unchanged(db)
    ensures id in old(db.products) && quantitySold <= old(db.products)[id].quantity ==>
      var p := old(db.products)[id];
      && r == Success(Sale(id, quantitySold, p.price * quantitySold, actor, now))
      && db.sales == old(db.sales) + [r.value]
      && db.products == old(db.products)[id := p.(quantity := p.quantity - quantitySold)]
      && db.transactions == old(db.transactions)
      && db.order == old(db.order) && db.nextId == old(db.nextId) && db.bills == old(db.bills)
  {
    if id !in db.products {
      return Failure(Error(404, "Product not found"));
    }
    var product := db.products[id];
    if product.quantity < quantitySold {
      return Failure(Error(400, "Insufficient stock"));
    }
    var totalPrice := product.price * quantitySold;
    var sale := Sale(id, quantitySold, totalPrice, actor, now);
    db.sales := db.sales + [sale];
    product := product.(quantity := product.quantity - quantitySold);
    db.products := db.products[id := product];
    r := Success(sale);
  }

  /** A sale that passes the stock check leaves a non-negative stock non-negative, and moves
      exactly its `totalPrice` out of the stock value and into the revenue of every day
      from its own onwards. */
  lemma {:induction false} SaleMovesValue(catalog: map<ProductId, Product>, order: seq<ProductId>, sales: seq<Sale>,
                       id: ProductId, quantitySold: int, actor: UserId, now: Day, today: Day)
    requires forall i :: 0 <= i < |order| ==> order[i] in catalog
    requires Distinct(order) && id in catalog && id in order
    requires quantitySold <= catalog[id].quantity
    requires today <= now
    ensures var p := catalog[id];
      var sale := Sale(id, quantitySold, p.price * quantitySold, actor, now);
      && p.quantity - quantitySold >= 0
      && StockValue(InOrder(catalog[id := p.(quantity := p.quantity - quantitySold)], order))
         == StockValue(InOrder(catalog, order)) - sale.totalPrice
      && RevenueSince(sales + [sale], today) == RevenueSince(sales, today) + sale.totalPrice
  {
    var p := catalog[id];
    TakeLowersStockValue(catalog, catalog[id := p.(quantity := p.quantity - quantitySold)], order, id, quantitySold);
    RevenueSinceAppend(sales, [Sale(id, quantitySold, p.price * quantitySold, actor, now)], today);
  }

  /** The JSON body of `getStats`. */
  datatype Stats = Stats(
    totalProducts: nat,
    totalStockValue: int,
    lowStockCount: nat,
    todaysRevenue: int,
    categoryDistribution: map<string, nat>,
    last7Days: seq<DayPoint>,
    topProducts: seq<TopProduct>)

  /** `getStats`, read from one state of the store. The figures agree with each other:
      no more low-stock products than products, the category counts add up to the
      product count, and while no sale is dated after today the last chart point is today
      and carries today's revenue. */
  method GetStats(db: Store, today: Day) returns (stats: Stats)
    requires db.Valid()
    ensures stats.totalProducts == |db.products|
    ensures stats.totalStockValue == StockValue(db.FindAll())
    ensures stats.lowStockCount == LowStockCount(db.FindAll())
    ensures stats.lowStockCount <= stats.totalProducts
    ensures stats.todaysRevenue == RevenueSince(db.sales, today)
    ensures stats.categoryDistribution.Keys == Categories(db.FindAll())
    ensures forall c :: c in stats.categoryDistribution ==> stats.categoryDistribution[c] == CountCategory(db.FindAll(), c)
    ensures SumValues(stats.categoryDistribution) == stats.totalProducts
    ensures |stats.last7Days| == 7
    ensures forall k :: 0 <= k < 7 ==>
      stats.last7Days[k] == DayPoint(today - 6 + k, SumOn(db.sales, today - 6 + k, Orders), SumOn(db.sales, today - 6 + k, Revenue))
    ensures (forall i :: 0 <= i < |db.sales| ==> db.sales[i].date <= today) ==>
      stats.last7Days[6].day == today && stats.last7Days[6].revenue == stats.todaysRevenue
    ensures stats.topProducts == TopProducts(db.sales, db.products)
  {
    var totalProducts := |db.products|;
    var products := db.FindAll();
    var totalStockValue := StockValue(products);
    var lowStockCount := LowStockCount(products);
    var todaysRevenue := RevenueSince(db.sales, today);
    var categories := CategoryDistribution(products);
    var last7Days := Last7Days(db.sales, today);
    var topProducts := TopProducts(db.sales, db.products);
    if forall i :: 0 <= i < |db.sales| ==> db.sales[i].date <= today {
      RevenueSinceIsToday(db.sales, today);
    }
    stats := Stats(totalProducts, totalStockValue, lowStockCount, todaysRevenue, categories, last7Days, topProducts);
  }
}

=== FILE: SalesPage.dfy ===
/** The cart of the point-of-sale page. Every handler returns a new cart (or the old one
    together with the alert it shows); nothing is updated in place. */
module SalesPage {
  import opened Models
  import opened BillController

  /** A product as fetched from `GET /api/products`, with its id. */
  datatype Listed = Listed(id: ProductId, product: Product)

  /** A cart line: the product's fields as they were when the line was created, and `qty`. */
  datatype CartLine = CartLine(id: ProductId, product: Product, qty: int)

  /** The outcome of a click: the next cart and the alert shown, if any. */
  datatype Step = Step(cart: seq<CartLine>, alert: Option<string>)

  /** `cart.find(x => x._id === id)`, as the index of the first matching line, or `|cart|`. */
  function LineIndex(cart: seq<CartLine>, id: ProductId): (k: nat)
    ensures k <= |cart|
    ensures k < |cart| ==> cart[k].id == id
    ensures forall j :: 0 <= j < k ==> cart[j].id != id
  {
    if cart == [] then 0
    else if cart[0].id == id then 0
    else
      var k := LineIndex(cart[1..], id);
      assert forall j :: 1 <= j < k + 1 ==> cart[j] == cart[1..][j - 1];
      k + 1
  }

  /** `products.find(p => p._id === id)` in `updateQty`: the lookup in the fetched product list,
      not in the cart. The index of the first match, or `|products|`. */
  function ListedIndex(products: seq<Listed>, id: ProductId): (k: nat)
    ensures k <= |products|
    ensures k < |products| ==> products[k].id == id
    ensures forall j :: 0 <= j < k ==> products[j].id != id
  {
    if products == [] then 0
    else if products[0].id == id then 0
    else
      var k := ListedIndex(products[1..], id);
      assert forall j :: 1 <= j < k + 1 ==> products[j] == products[1..][j - 1];
      k + 1
  }

  predicate DistinctIds(cart: seq<CartLine>)
  {
    forall i, j :: 0 <= i < j < |cart| ==> cart[i].id != cart[j].id
  }

  /** `cart.map(x => x._id === id ? line : x)`. */
  function Replace(cart: seq<CartLine>, id: ProductId, line: CartLine): (r: seq<CartLine>)
    ensures |r| == |cart|
    ensures forall i :: 0 <= i < |cart| ==> r[i] == (if cart[i].id == id then line else cart[i])
  {
    seq(|cart|, i requires 0 <= i < |cart| => if cart[i].id == id then line else cart[i])
  }

  /** In a cart without repeated ids, the map replaces the one line found and no other. */
  lemma {:induction false} ReplaceOne(cart: seq<CartLine>, id: ProductId, line: CartLine)
    requires DistinctIds(cart)
    requires LineIndex(cart, id) < |cart|
    ensures Replace(cart, id, line) == cart[LineIndex(cart, id) := line]
  {
    var k := LineIndex(cart, id);
    forall i | 0 <= i < |cart|
      ensures Replace(cart, id, line)[i] == cart[k := line][i]
    {
      if i != k {
        assert cart[i].id != cart[k].id;
      }
    }
  }

  /** `removeFromCart`: `cart.filter(x => x._id !== id)`. */
  function RemoveFromCart(cart: seq<CartLine>, id: ProductId): (r: seq<CartLine>)
    ensures |r| <= |cart|
  {
    if cart == [] then []
    else
      var front := cart[..|cart| - 1];
      var last := cart[|cart| - 1];
      if last.id == id then RemoveFromCart(front, id) else RemoveFromCart(front, id) + [last]
  }

  /** The filter keeps exactly the lines with another id. */
  lemma {:induction false} RemoveFromCartMembers(cart: seq<CartLine>, id: ProductId)
    ensures forall x :: x in RemoveFromCart(cart, id) <==> x in cart && x.id != id
  {
    if cart != [] {
      var front := cart[..|cart| - 1];
      RemoveFromCartMembers(front, id);
      assert cart == front + [cart[|cart| - 1]];
    }
  }

  /** Removing an id that no line has changes nothing. */
  lemma {:induction false} RemoveAbsent(cart: seq<CartLine>, id: ProductId)
    requires LineIndex(cart, id) == |cart|
    ensures RemoveFromCart(cart, id) == cart
  {
    if cart != [] {
      var front := cart[..|cart| - 1];
      assert forall i :: 0 <= i < |front| ==> front[i].id != id;
      assert cart[|cart| - 1].id != id;
      RemoveAbsent(front, id);
      assert cart == front + [cart[|cart| - 1]];
    }
  }

  /** In a cart without repeated ids, removing the line found leaves the lines before it
      and the lines after it, in order. */
  lemma {:induction false} RemoveOne(cart: seq<CartLine>, id: ProductId, k: nat)
    requires DistinctIds(cart)
    requires k == LineIndex(cart, id) && k < |cart|
    ensures RemoveFromCart(cart, id) == cart[..k] + cart[k + 1..]
  {
    var front := cart[..|cart| - 1];
    var last := cart[|cart| - 1];
    if k == |cart| - 1 {
      assert LineIndex(front, id) == |front|;
      RemoveAbsent(front, id);
      assert cart[..k] == front;
    } else {
      assert last.id != id;
      assert front[k].id == id;
      assert LineIndex(front, id) == k by {
        var j := LineIndex(front, id);
        assert forall i :: 0 <= i < k ==> front[i].id != id;
      }
      RemoveOne(front, id, k);
      assert cart[k + 1..] == front[k + 1..] + [last];
      assert cart[..k] == front[..k];
    }
  }

  /** `addToCart`: refuse a product that is out of stock; raise the quantity of its line by
      one unless that passes the fetched stock; otherwise start a line with quantity 1. */
  function AddToCart(cart: seq<CartLine>, item: Listed): (r: Step)
    ensures item.product.quantity <= 0 ==> r.alert == Some("Out of Stock!")
    ensures r.alert.None? ==> exists j :: 0 <= j < |r.cart| && r.cart[j].id == item.id
  {
    if item.product.quantity <= 0 then Step(cart, Some("Out of Stock!"))
    else
      var k := LineIndex(cart, item.id);
      if k < |cart| then
        var existing := cart[k];
        if existing.qty + 1 > item.product.quantity then Step(cart, Some("No more stock available!"))
        else
          var next := Replace(cart, item.id, existing.(qty := existing.qty + 1));
          assert next[k].id == item.id;
          Step(next, None)
      else
        var next := cart + [CartLine(item.id, item.product, 1)];
        assert next[|cart|].id == item.id;
        Step(next, None)
  }

  /** The three outcomes of `addToCart`, line by line. The incremented line keeps the
      fields it was created with; only its quantity changes. */
  lemma {:induction false} AddToCartSpec(cart: seq<CartLine>, item: Listed, k: nat)
    requires DistinctIds(cart)
    requires k == LineIndex(cart, item.id)
    ensures item.product.quantity <= 0 ==> AddToCart(cart, item) == Step(cart, Some("Out of Stock!"))
    ensures item.product.quantity > 0 && k == |cart| ==>
      AddToCart(cart, item) == Step(cart + [CartLine(item.id, item.product, 1)], None)
    ensures item.product.quantity > 0 && k < |cart| && cart[k].qty + 1 > item.product.quantity ==>
      AddToCart(cart, item) == Step(cart, Some("No more stock available!"))
    ensures item.product.quantity > 0 && k < |cart| && cart[k].qty + 1 <= item.product.quantity ==>
      AddToCart(cart, item) == Step(cart[k := cart[k].(qty := cart[k].qty + 1)], None)
  {
    var r := AddToCart(cart, item);
    if item.product.quantity <= 0 {
    } else if k == |cart| {
      assert r.cart == cart + [CartLine(item.id, item.product, 1)];
    } else if cart[k].qty + 1 > item.product.quantity {
      assert r.cart == cart;
    } else {
      AddIncrements(cart, item, k);
    }
  }

  lemma {:induction false} AddIncrements(cart: seq<CartLine>, item: Listed, k: nat)
    requires DistinctIds(cart)
    requires item.product.quantity > 0
    requires k == LineIndex(cart, item.id) && k < |cart|
    requires cart[k].qty + 1 <= item.product.quantity
    ensures AddToCart(cart, item) == Step(cart[k := cart[k].(qty := cart[k].qty + 1)], None)
  {
    AddToCartBumps(cart, item, k);
    ReplaceOne(cart, item.id, cart[k].(qty := cart[k].qty + 1));
  }

  /** The increment branch of `addToCart`, before anything is known about repeated ids. */
  lemma {:induction false} AddToCartBumps(cart: seq<CartLine>, item: Listed, k: nat)
    requires item.product.quantity > 0
    requires k == LineIndex(cart, item.id) && k < |cart|
    requires cart[k].qty + 1 <= item.product.quantity
    ensures AddToCart(cart, item).alert == None
    ensures AddToCart(cart, item).cart == Replace(cart, item.id, cart[k].(qty := cart[k].qty + 1))
  {
  }

  /** `updateQty`. The page only offers it on a cart line of a fetched product; the handler
      dereferences both lookups without a check. */
  function UpdateQty(cart: seq<CartLine>, products: seq<Listed>, id: ProductId, amount: int): (r: Step)
    requires LineIndex(cart, id) < |cart|
    requires ListedIndex(products, id) < |products|
    ensures r.alert.Some? ==> r.cart == cart
    ensures |r.cart| <= |cart|
  {
    var item := cart[LineIndex(cart, id)];
    var product := products[ListedIndex(products, id)].product;
    var newQty := item.qty + amount;
    if newQty > product.quantity then Step(cart, Some("Stock limit reached!"))
    else if newQty < 1 then Step(RemoveFromCart(cart, id), None)
    else Step(Replace(cart, id, item.(qty := newQty)), None)
  }

  /** The three outcomes of `updateQty`, line by line; every other line is untouched. */
  lemma {:induction false} UpdateQtySpec(cart: seq<CartLine>, products: seq<Listed>, id: ProductId, amount: int)
    requires DistinctIds(cart)
    requires LineIndex(cart, id) < |cart|
    requires ListedIndex(products, id) < |products|
    ensures var k := LineIndex(cart, id);
      var stock := products[ListedIndex(products, id)].product.quantity;
      var newQty := cart[k].qty + amount;
      var r := UpdateQty(cart, products, id, amount);
      && (newQty > stock ==> r == Step(cart, Some("Stock limit reached!")))
      && (newQty <= stock && newQty < 1 ==> r == Step(cart[..k] + cart[k + 1..], None))
      && (1 <= newQty <= stock ==> r == Step(cart[k := cart[k].(qty := newQty)], None))
  {
    var k := LineIndex(cart, id);
    var stock := products[ListedIndex(products, id)].product.quantity;
    var newQty := cart[k].qty + amount;
    if newQty <= stock && newQty < 1 {
      assert UpdateQty(cart, products, id, amount).cart == RemoveFromCart(cart, id);
      RemoveOne(cart, id, k);
    } else if 1 <= newQty <= stock {
      assert UpdateQty(cart, products, id, amount).cart == Replace(cart, id, cart[k].(qty := newQty));
      ReplaceOne(cart, id, cart[k].(qty := newQty));
    }
  }

  /** The cart the page keeps: no product twice, and each line's quantity between 1 and
      the stock of its product as last fetched. */
  predicate CartOk(cart: seq<CartLine>, products: seq<Listed>)
  {
    && DistinctIds(cart)
    && forall i :: 0 <= i < |cart| ==>
         && ListedIndex(products, cart[i].id) < |products|
         && 1 <= cart[i].qty <= products[ListedIndex(products, cart[i].id)].product.quantity
  }

  /** The entry the page shows for an id: the first fetched product with it. */
  predicate Shown(products: seq<Listed>, item: Listed)
  {
    ListedIndex(products, item.id) < |products| && products[ListedIndex(products, item.id)] == item
  }

  lemma {:induction false} AddToCartKeepsCartOk(cart: seq<CartLine>, products: seq<Listed>, item: Listed)
    requires CartOk(cart, products)
    requires Shown(products, item)
    ensures CartOk(AddToCart(cart, item).cart, products)
  {
    AddToCartSpec(cart, item, LineIndex(cart, item.id));
  }

  lemma {:induction false} RemoveKeepsCartOk(cart: seq<CartLine>, products: seq<Listed>, id: ProductId)
    requires CartOk(cart, products)
    ensures CartOk(RemoveFromCart(cart, id), products)
  {
    var k := LineIndex(cart, id);
    if k < |cart| {
      RemoveOne(cart, id, k);
      DropKeepsCartOk(cart, products, k);
    } else {
      RemoveAbsent(cart, id);
    }
  }

  /** Dropping one line of a valid cart leaves a valid cart. */
  lemma {:induction false} DropKeepsCartOk(cart: seq<CartLine>, products: seq<Listed>, k: nat)
    requires CartOk(cart, products) && k < |cart|
    ensures CartOk(cart[..k] + cart[k + 1..], products)
  {
    var r := cart[..k] + cart[k + 1..];
    assert |r| == |cart| - 1;
    forall i | 0 <= i < |r|
      ensures r[i] == cart[if i < k then i else i + 1]
    {
    }
    forall i, j | 0 <= i < j < |r|
      ensures r[i].id != r[j].id
    {
      assert r[i] == cart[if i < k then i else i + 1];
      assert r[j] == cart[if j < k then j else j + 1];
    }
  }

  lemma {:induction false} UpdateQtyKeepsCartOk(cart: seq<CartLine>, products: seq<Listed>, id: ProductId, amount: int)
    requires CartOk(cart, products)
    requires LineIndex(cart, id) < |cart|
    requires ListedIndex(products, id) < |products|
    ensures CartOk(UpdateQty(cart, products, id, amount).cart, products)
  {
    UpdateQtySpec(cart, products, id, amount);
    RemoveKeepsCartOk(cart, products, id);
    RemoveOne(cart, id, LineIndex(cart, id));
  }

  /** `grandTotal`: the sum of `price * qty` over the cart, at the prices the lines hold. */
  function GrandTotal(cart: seq<CartLine>): (t: int)
    ensures (forall i :: 0 <= i < |cart| ==> cart[i].product.price >= 0 && cart[i].qty >= 0) ==> t >= 0
  {
    if cart == [] then 0
    else GrandTotal(cart[..|cart| - 1]) + cart[|cart| - 1].product.price * cart[|cart| - 1].qty
  }

  /** The body posted to `/api/bills`. */
  datatype BillRequest = BillRequest(customerName: Option<string>, paymentMode: Option<string>, items: seq<BillRequestItem>)

  /** `items: cart.map(...)`: one request line per cart line, in cart order. */
  function Payload(cart: seq<CartLine>): (items: seq<BillRequestItem>)
    ensures |items| == |cart|
    ensures forall i :: 0 <= i < |cart| ==>
      items[i] == BillRequestItem(cart[i].id, Some(cart[i].product.name), cart[i].qty, Some(cart[i].product.price))
  {
    seq(|cart|, i requires 0 <= i < |cart| => BillRequestItem(cart[i].id, Some(cart[i].product.name), cart[i].qty, Some(cart[i].product.price)))
  }

  /** What the checkout button does before the request: refuse an empty cart, stop when the
      confirmation is declined, otherwise post the bill. */
  datatype Checkout = Refused(alert: string) | Declined | Submit(request: BillRequest)

  function HandleCheckout(cart: seq<CartLine>, confirmed: bool, customerName: string, mode: PaymentMode): (c: Checkout)
    ensures cart == [] <==> c == Refused("Cart is empty!")
    ensures c.Submit? <==> cart != [] && confirmed
    ensures c.Submit? ==> |c.request.items| == |cart| >= 1
    ensures c.Submit? ==>
      && c.request.items == Payload(cart)
      && c.request.paymentMode == Some(PaymentModeName(mode))
      && c.request.customerName == Some(customerName)
  {
    if cart == [] then Refused("Cart is empty!")
    else if !confirmed then Declined
    else Submit(BillRequest(Some(customerName), Some(PaymentModeName(mode)), Payload(cart)))
  }

  /** The request a kept cart posts names each product once, asks for at least one unit of
      each, and carries a payment mode the Bill schema accepts as the one chosen. */
  lemma {:induction false} CheckoutPayload(cart: seq<CartLine>, products: seq<Listed>, customerName: string, mode: PaymentMode)
    requires CartOk(cart, products) && cart != []
    ensures var c := HandleCheckout(cart, true, customerName, mode);
      && c.Submit?
      && DistinctItems(c.request.items)
      && (forall i :: 0 <= i < |c.request.items| ==> c.request.items[i].quantity >= 1)
      && ParsePaymentMode(c.request.paymentMode) == Some(mode)
  {
    PaymentModeRoundTrip(mode);
  }
}
